=== FILE: README.md ===
# discmaster aggregation pipeline in Dafny

This project models the server side of discmaster-ui (`api/src/index.ts`). The
service is a proxy in front of the discmaster search of textfiles.com. It has
two query kinds:

- A **regular query** forwards one search. Each hit is normalised: it gets an
  absolute `href`, a `parent` folder label and a description looked up by
  content hash. The total number of matches is read from the summary text of
  the upstream HTML page.
- A **grouped query** (`hashGrouping`) fetches every page of 250 hits, up to
  page 20. It folds the hits into one group per content hash, optionally sorts
  the groups by first date, size or hash, and reports how many groups there
  are.

The modules follow those steps:

| file | module | source |
|---|---|---|
| `wrappers.dfy` | `Wrappers` | `Option` and map lookup (`undefined` is `None`) |
| `normalizer.dfy` | `Normalizer` | `parseResult` |
| `grouping.dfy` | `Grouping` | `groupResults`: the `forEach` fold over a hash-keyed dictionary |
| `paging.dfy` | `Paging` | the page loop of `handleGroupedQuery` |
| `sorting.dfy` | `Sorting` | the sort post-pass of `handleGroupedQuery` |
| `totalcount.dfy` | `TotalCount` | the text matching of `parseTotalResults` |
| `handler.dfy` | `Handler` | the bodies built by `handleGroupedQuery` and `handleRegularQuery` |

The outside world enters as parameters:

- `page: nat -> seq<RawRecord>` is the upstream search, answering page `n`;
- `known: map<string, string>` is the hash-to-description database;
- `decode: string -> string` is `decodeURIComponent`;
- `text: Option<string>` is the text of the summary element, `None` when the
  XPath lookup finds nothing.

The grouped query has three imperative parts, and each is modelled as one:

- `Grouping.GroupResults` is a loop over the hits. Its loop body,
  `Grouping.Visit`, updates a `map<string, Group>` and the list of hashes in
  insertion order, as the JavaScript object does. Both are proved against the
  reference definition `Grouping.Grouped`.
- `Paging.FetchAllPages` is the bounded `while (true)` loop. It is proved
  against `Paging.Pages` and `Paging.StopPage`.
- `Sorting.SortGroups` sorts an `array<Group>` in place. It is proved to be a
  permutation that is ordered by the requested key.

## Model

| member | source | states |
|---|---|---|
| Wrappers.Lookup | api/src/index.ts:39 | the lookup is present exactly when the key is in the map, and then gives the map's value |
| Normalizer.Split | api/src/index.ts:34 | `href.split('/')` yields at least one part |
| Normalizer.SplitPiecesSlashFree | api/src/index.ts:34 | no part of `split('/')` contains `/` |
| Normalizer.SplitCons | api/src/index.ts:34 | a leading `/` starts a new empty part, and any other leading character joins the first part |
| Normalizer.SplitConsAppend | api/src/index.ts:34 | if `u` splits into the parts of `t` followed by those of `b`, so does `u` with one more character in front, with `t` extended by it |
| Normalizer.JoinSplit | api/src/index.ts:34 | joining the parts of `split('/')` with `/` gives back the original string |
| Normalizer.SplitNoSlash | api/src/index.ts:34 | a string without `/` splits into itself alone |
| Normalizer.SplitAppend | api/src/index.ts:34 | splitting `a/b` gives the parts of `a` followed by the parts of `b` |
| Normalizer.RawParent | api/src/index.ts:34-35 | the raw parent, the second-to-last part of the link or `''`, never contains a `/` |
| Normalizer.JoinCons | api/src/index.ts:34 | prepending a character to the first part prepends it to the joined string |
| Normalizer.ParentOfNestedLink | api/src/index.ts:34-35 | for `…/folder/name`, the raw parent is `folder`, the second-to-last segment |
| Normalizer.ParentOfShortLink | api/src/index.ts:34-35 | for `folder/name`, the raw parent is `folder` |
| Normalizer.ParentOfBareName | api/src/index.ts:35 | with no `/`, there is no second-to-last segment and the raw parent is `''` |
| Normalizer.ParentLabel | api/src/index.ts:36-38 | the label is the decoded parent, with `/` appended exactly when it contains no `.` |
| Normalizer.Normalize | api/src/index.ts:33-46 | `href` is prefixed with the origin; `parent` is the label of the decoded second-to-last segment; `description` is present exactly when the hash is known and is then the known text; every other field is unchanged |
| Normalizer.NormalizeFolderParent | api/src/index.ts:34-38 | for `…/folder/name`, `parent` is the decoded folder, with `/` appended when it has no `.` |
| Normalizer.NormalizeBareParent | api/src/index.ts:35-38 | an `href` with no `/` gets the parent `/` |
| Grouping.WithHash | api/src/index.ts:51-68 | the hits filed under `h` are non-empty exactly when `h` occurs in the input |
| Grouping.Distinct | api/src/index.ts:49-52 | the dictionary keys are exactly the hashes that occur in the input |
| Grouping.FirstIndex | api/src/index.ts:51-63 | the hit that creates a group is the first hit with that hash |
| Grouping.HashesOfIndex | api/src/index.ts:50-51 | every hit's hash is among the input's hashes, and every such hash is carried by some hit |
| Grouping.Grouped | api/src/index.ts:79-84 | there is one group per dictionary key |
| Grouping.Seed | api/src/index.ts:51-64 | a group created from one hit is the summary of that one hit |
| Grouping.Absorb | api/src/index.ts:66-76 | a later hit appends its normalised entry and adds its filename; `firstDate` becomes the smaller and `lastDate` the larger of the old date and the hit's timestamp; hash, size, ext, family, formatid and description stay as they were |
| Grouping.AbsorbIsSummary | api/src/index.ts:66-76 | updating a group with a further hit gives the summary of the longer list of hits |
| Grouping.Snoc | api/src/index.ts:50-52 | one more hit adds its hash to the keys only when it is new, and extends only its own hash's hits |
| Grouping.SeedKeepsOthers | api/src/index.ts:51-64 | creating a group for a new hash leaves every other group a faithful summary |
| Grouping.AbsorbKeepsOthers | api/src/index.ts:66-76 | updating one group leaves every other group a faithful summary |
| Grouping.BuiltNewHash | api/src/index.ts:51-64 | the new-hash branch keeps the dictionary invariant: the keys are the hashes seen, in first-appearance order, and each group summarises its hits |
| Grouping.BuiltKnownHash | api/src/index.ts:66-76 | the known-hash branch keeps the same invariant |
| Grouping.BuiltIsGrouped | api/src/index.ts:79-84 | reading the dictionary in key-insertion order gives the reference grouping |
| Grouping.Visit | api/src/index.ts:50-77 | one `forEach` step over a hit keeps the dictionary invariant for the hits seen so far plus that hit |
| Grouping.GroupResults | api/src/index.ts:48-85 | the loop returns exactly the reference grouping of all the hits |
| Grouping.LowerChar | api/src/index.ts:64 | a capital letter becomes its small letter, any other character is kept, and no capital remains |
| Grouping.Lower | api/src/index.ts:64 | lower-casing keeps the length |
| Grouping.LowerAt | api/src/index.ts:64 | lower-casing works character by character and leaves no capital |
| Grouping.AddName | api/src/index.ts:64-69 | `Set.add` keeps the names already present as a prefix, in their order, and adds exactly the new name |
| Grouping.AddNameProps | api/src/index.ts:64-69 | `Set.add` keeps the names free of repeats, and adding a name already present changes nothing |
| Grouping.MinTsIsMinimum | api/src/index.ts:59-72 | the first date is at most every timestamp and equals one of them |
| Grouping.MaxTsIsMaximum | api/src/index.ts:60-75 | the last date is at least every timestamp and equals one of them |
| Grouping.NormalizeAllAt | api/src/index.ts:61-68 | the entries are the normalised hits, one for one, in order |
| Grouping.FilenamesProps | api/src/index.ts:53-81 | the filenames have no duplicates; the first is the lower-cased name of the first hit; every later name is present as written; nothing else is present |
| Grouping.FilenamesInArrivalOrder | api/src/index.ts:64-81 | the name list after any first `k` hits is a prefix of the final list, so names stand in the order they first arrived |
| Grouping.WithHashMembers | api/src/index.ts:66-68 | a hit is filed under `h` exactly when it is an input hit with hash `h` |
| Grouping.WithHashFirst | api/src/index.ts:51-63 | the first hit filed under `h` is the input's first hit with hash `h` |
| Grouping.DistinctNoDup | api/src/index.ts:49-52 | the keys are pairwise distinct |
| Grouping.DistinctCount | api/src/index.ts:49-52 | there are as many keys as distinct hashes |
| Grouping.DistinctInFirstAppearanceOrder | api/src/index.ts:79 | of two keys, the earlier one first appears earlier in the input |
| Grouping.FiledCountStep | api/src/index.ts:66-68 | one more hit adds one entry exactly when its hash is a key |
| Grouping.FiledCountTotal | api/src/index.ts:50-77 | every hit is filed under exactly one key |
| Grouping.EntryCountIsFiled | api/src/index.ts:61-68 | the entry lists sum to the number of filed hits |
| Grouping.GroupedAt | api/src/index.ts:79-84 | group `i` summarises the non-empty hits of the `i`-th key |
| Grouping.GroupHashIsKey | api/src/index.ts:51-84 | the `i`-th group carries the `i`-th dictionary key as its hash |
| Grouping.GroupHashesAreKeys | api/src/index.ts:79-84 | every group carries the dictionary key it is listed under |
| Grouping.EveryHitHasGroup | api/src/index.ts:48-85 | every hit's hash is the hash of some group |
| Grouping.GroupsMatchHashes | api/src/index.ts:48-85 | there is one group per distinct hash, the group hashes are pairwise distinct, every group hash occurs, and every hit's hash has a group |
| Grouping.GroupedEntriesTotal | api/src/index.ts:48-85 | the entry lists of all groups sum to the number of input hits |
| Grouping.GroupedInFirstAppearanceOrder | api/src/index.ts:79-84 | the groups come in the order in which their hashes first appear |
| Grouping.GroupEntries | api/src/index.ts:61-68 | a group's entries are the normalised hits with its hash, in input order, and there is at least one |
| Grouping.GroupDates | api/src/index.ts:59-75 | `firstDate` and `lastDate` are the minimum and maximum timestamp of the group's entries, so `firstDate <= lastDate` |
| Grouping.GroupFirstSeen | api/src/index.ts:52-63 | `size`, `ext`, `family`, `formatid`, `hash` and `description` are those of the first hit with that hash |
| Grouping.GroupFilenames | api/src/index.ts:64-81 | the filenames have no duplicates, start with the lower-cased first name, hold exactly the later names as written, and list them in the order they first arrived |
| Paging.StopPage | api/src/index.ts:96-113 | the stop page is the first empty page from `n` on, or 21 when pages `n` to 20 are all non-empty |
| Paging.StopPageUnique | api/src/index.ts:96-113 | any page number with that description is the stop page |
| Paging.FetchAllPages | api/src/index.ts:93-113 | the accumulated hits are the concatenation of the pages before the stop page; pages 0, 1, … are requested in order; at most 21 are requested; the empty page is requested but not appended |
| Paging.PagesBounded | api/src/index.ts:88-91 | with at most 250 hits per page, `n` pages hold at most `250 * n` hits |
| Paging.TotalAtMost5250 | api/src/index.ts:88-97 | with at most 250 hits per page, a grouped query collects at most 5250 hits |
| Paging.TwoFullPagesThenEmpty | api/src/index.ts:96-113 | pages of 250, 250 and then none give 500 hits and stop at page 2 |
| Sorting.ParseSortType | api/src/index.ts:116-126 | `ts`, `size` and `hash` each select their key, and nothing else selects one |
| Sorting.StrLess | api/src/index.ts:125 | a string below another differs from it, and a proper prefix is below the longer string |
| Sorting.LocaleCompare | api/src/index.ts:125 | `localeCompare` answers negative exactly when the first string is below, zero exactly when they are equal, and positive exactly when the second is below |
| Sorting.StrLessAsymmetric | api/src/index.ts:125 | the string order is asymmetric |
| Sorting.StrLessTransitive | api/src/index.ts:125 | the string order is transitive |
| Sorting.StrLessTotal | api/src/index.ts:125 | of two different strings, one is below the other |
| Sorting.NotLessTransitive | api/src/index.ts:125 | "not below" is transitive |
| Sorting.Comparator | api/src/index.ts:119-125 | for each key the comparator is negative exactly when the first group has the later `firstDate`, the larger size or the greater hash, and zero exactly when those are equal |
| Sorting.AheadIsNegative | api/src/index.ts:117-126 | a group goes strictly ahead of another exactly when the comparator for the chosen key answers a negative number |
| Sorting.AheadAsymmetric | api/src/index.ts:119-125 | two groups never both go ahead of each other |
| Sorting.Swap | api/src/index.ts:116-127 | two positions are exchanged, the rest is unchanged, and the contents stay a permutation |
| Sorting.SinkLeft | api/src/index.ts:116-127 | moving one group left into an ordered prefix extends that prefix by one and keeps a permutation |
| Sorting.InsertionSort | api/src/index.ts:117-126 | the result is a permutation in which no group is ahead of its left neighbour under the key |
| Sorting.SortGroups | api/src/index.ts:116-127 | the result is a permutation; it is ordered by the key when `sortType` names one, and otherwise it is the list unchanged |
| Sorting.ByTsPairwise | api/src/index.ts:119 | sorted by `ts`, `firstDate` does not increase along the list |
| Sorting.BySizePairwise | api/src/index.ts:122 | sorted by `size`, `size` does not increase along the list |
| Sorting.ByHashPairwise | api/src/index.ts:125 | sorted by `hash`, no hash is below a later one |
| TotalCount.DigitRun | api/src/index.ts:186 | the greedy `\d+` run stays in the text |
| TotalCount.DigitRunIsMaximal | api/src/index.ts:186 | the greedy `\d+` run consists of digits and stops at a non-digit or the end of the text |
| TotalCount.CommaGroups | api/src/index.ts:186 | the `(,\d+)*` run stays in the text |
| TotalCount.GroupedNumberRun | api/src/index.ts:186 | the `\d+(,\d+)*` run stays in the text |
| TotalCount.ShownAt | api/src/index.ts:186 | what the first pattern captures is a well-formed `\d+(,\d+)*` total |
| TotalCount.TotalAt | api/src/index.ts:186 | what the rest of the first pattern captures is a well-formed total, followed in the text by ` total matches)` |
| TotalCount.CountAt | api/src/index.ts:191 | what the fallback captures is a digit string, followed in the text by ` results` |
| TotalCount.Leftmost | api/src/index.ts:186-191 | the search finds the leftmost position where the pattern matches, or reports that none matches |
| TotalCount.FirstMatch | api/src/index.ts:186-191 | `match` succeeds exactly when the pattern matches somewhere |
| TotalCount.StripCommas | api/src/index.ts:188 | `replaceAll(",", "")` removes every comma and keeps every other character |
| TotalCount.StripNoComma | api/src/index.ts:188 | a text without commas is left unchanged |
| TotalCount.StripAppend | api/src/index.ts:188 | commas are removed piece by piece, so the kept characters keep their order and number |
| TotalCount.DigitValue | api/src/index.ts:196 | a digit is worth less than ten |
| TotalCount.Value | api/src/index.ts:196 | a string of `k` digits is worth less than `10^k` |
| TotalCount.ValueAppend | api/src/index.ts:196 | digits `a` then digits `b` are worth `a` times `10^|b|` plus `b`: the decimal place-value reading of unary `+` |
| TotalCount.ValueDigit | api/src/index.ts:196 | a single digit character is worth its distance from `'0'`, so with `ValueAppend` the value is the decimal reading of the digits |
| TotalCount.ValueLeadingZero | api/src/index.ts:196 | a leading zero does not change the value |
| TotalCount.ParseTotal | api/src/index.ts:184-198 | a missing or empty text gives `undefined`; otherwise there is a number exactly when one of the two patterns matches somewhere |
| TotalCount.DigitRunExact | api/src/index.ts:186 | a digit run that ends where the digits end is the greedy run |
| TotalCount.SplitWellFormed | api/src/index.ts:186 | a `\d+(,\d+)*` string is its leading digits followed by a `(,\d+)*` tail |
| TotalCount.CommaGroupsExact | api/src/index.ts:186 | the greedy `(,\d+)*` run consumes exactly a well-formed tail that is followed by a space |
| TotalCount.GroupedNumberRunExact | api/src/index.ts:186 | the greedy `\d+(,\d+)*` run consumes exactly a well-formed total that is followed by a space |
| TotalCount.DigitRunDigits | api/src/index.ts:186 | the greedy `\d+` run, when there is one, is a string of digits |
| TotalCount.DigitsThenTail | api/src/index.ts:186 | digits followed by a `(,\d+)*` tail form a `\d+(,\d+)*` string |
| TotalCount.CommaGroupsWellFormed | api/src/index.ts:186 | the greedy `(,\d+)*` run is a well-formed tail |
| TotalCount.CommaGroupsStep | api/src/index.ts:186 | one more `,\d+` group in front of a well-formed tail is a well-formed tail |
| TotalCount.GroupedNumberRunWellFormed | api/src/index.ts:186 | the greedy `\d+(,\d+)*` run, when there is one, is a well-formed total |
| TotalCount.RunOfCopy | api/src/index.ts:186 | where a string is copied into the text and followed there by a non-digit, the digit run at that point is the string's own leading digit run |
| TotalCount.DigitsThenSpace | api/src/index.ts:186 | digits followed by a literal starting with a space are exactly the greedy `\d+` run |
| TotalCount.TotalAtPieces | api/src/index.ts:186 | `<total> total matches)` in the text matches the rest of the first pattern and captures `<total>` |
| TotalCount.ShownAtFrom | api/src/index.ts:186 | a digit run, then ` results shown (`, then a matching rest: the first pattern matches and captures the rest's total |
| TotalCount.HasAtSplit | api/src/index.ts:186 | a literal made of two parts occurs where its parts occur one after the other |
| TotalCount.ShownAtPieces | api/src/index.ts:186 | `<n> results shown (<total> total matches)`, laid out piece by piece, matches and captures `<total>` |
| TotalCount.ShownAtRecognises | api/src/index.ts:186 | text holding `<n> results shown (<total> total matches)` matches there and captures `<total>` |
| TotalCount.ShownAtLayout | api/src/index.ts:186 | conversely, where the first pattern matches, the text holds `<n> results shown (<total> total matches)`, `<n>` being the digits there and `<total>` the capture |
| TotalCount.CountAtRecognises | api/src/index.ts:191 | text holding `<n> results` matches the fallback there and captures `<n>` |
| TotalCount.NoParenNotShownAt | api/src/index.ts:186 | without a `(`, the literal ` results shown (` occurs nowhere |
| TotalCount.NoParenNoShown | api/src/index.ts:186 | without a `(`, the first pattern matches nowhere |
| TotalCount.NoDigitNoMatch | api/src/index.ts:186-191 | without a digit, neither pattern matches |
| TotalCount.LeftmostAt | api/src/index.ts:186-191 | the search stops at the first position where the pattern matches |
| TotalCount.TotalFromShown | api/src/index.ts:186-196 | a text holding `<n> results shown (<total> total matches)` at some position, with no match of that pattern further left, gives the value of `<total>` with its commas removed |
| TotalCount.TotalFromCount | api/src/index.ts:186-196 | a text holding `<n> results` at some position, where the first pattern matches nowhere and the fallback nowhere further left, gives `<n>` |
| TotalCount.TotalFound | api/src/index.ts:184-198 | conversely, a number comes from the leftmost match of the first pattern, commas removed, or, when that pattern matches nowhere, from the leftmost match of the fallback |
| TotalCount.NoLayoutNoTotal | api/src/index.ts:184-198 | a text that holds neither layout anywhere gives `undefined` |
| TotalCount.LeadingShown | api/src/index.ts:186-196 | a text starting with `<n> results shown (<total> total matches)` gives the value of `<total>` with its commas removed |
| TotalCount.LeadingCount | api/src/index.ts:186-196 | a text starting with `<n> results`, with no `(` after it, gives `<n>` |
| TotalCount.TotalUnknown | api/src/index.ts:184-198 | a missing element, an empty text or a text with no digit gives `undefined` |
| TotalCount.ShownExample | api/src/index.ts:186-188 | `50 results shown (1,234 total matches)` gives 1234 |
| TotalCount.StripExample | api/src/index.ts:188-196 | `1,234` without its commas has the value 1234 |
| TotalCount.CountExample | api/src/index.ts:191 | `7 results` gives 7 |
| TotalCount.ZeroExample | api/src/index.ts:191-196 | `0 results` gives the known total 0, which differs from `undefined` |
| Handler.TypeTag | api/src/index.ts:133-166 | the type tag is `GROUPED` exactly for the grouped body and `SINGLE` exactly for the single body |
| Handler.HandleGroupedQuery | api/src/index.ts:93-134 | the body lists a permutation of the grouping of every fetched hit; its groups have pairwise distinct hashes; the count equals the number of groups and of distinct hashes; the list is ordered by the recognised sort key, and otherwise it is in first-appearance order |
| Handler.SortGroupList | api/src/index.ts:116-127 | the returned list is a permutation of the groups, ordered by the recognised key, and the groups unchanged when no key is recognised |
| Handler.PermutationKeepsDistinctHashes | api/src/index.ts:116-127 | reordering the groups keeps their hashes pairwise distinct |
| Handler.SameElementTwice | api/src/index.ts:116-127 | a value at two positions of a list occurs at least twice in it |
| Handler.OnlyOnce | api/src/index.ts:116-127 | in a list with pairwise distinct hashes, each group occurs once |
| Handler.RegularBody | api/src/index.ts:159-167 | entry `i` of the body is hit `i` through the normaliser, one for one and in order, so each has the hit's hash, the absolute `href`, and a description exactly when the hash is known; the count is the parsed total |

## Left out

- HTTP serving, routing on `hashGrouping`, status codes, response headers and CORS (api/src/index.ts:136-142, api/src/index.ts:169-176, api/src/index.ts:202-214) are plumbing.
- `fetch`, `response.json()` and the `Promise.all` concurrency of `handleRegularQuery` are network I/O. The upstream is the page oracle `page`, and the regular query takes its hits and summary text as inputs (`Handler.RegularBody`).
- JSDOM parsing and the XPath lookup of the summary element (api/src/index.ts:180-183) come from a foreign library. The element's text enters as `Option<string>`.
- api/src/database.ts, which scans a directory and merges JSON files into the description map, is not part of this model. The merged map is the parameter `known`.
- The UI (ui/src/App.tsx) is not part of this model.
- The truncation log line (api/src/index.ts:98) is output only.
- `decodeURIComponent` is the parameter `decode`. The `URIError` it throws on a malformed escape is not modelled: the model assumes that every `href` decodes.
- `toLowerCase` is modelled for ASCII letters only (`Grouping.Lower`). Unicode case mapping is not modelled.
- `localeCompare` is modelled as plain lexicographic order on characters. Locale collation is not modelled.
- Numbers are unbounded integers. Floating-point rounding of very large timestamps, sizes or totals (`+totalCount`) is not modelled.
- Groups are values kept in a map. `groupResults` mutates them in place through the dictionary, and the returned objects share their `entries` arrays with it. That aliasing is not modelled, and nothing observable depends on it.
- The JavaScript object's key order is taken to be insertion order. Integer-like keys, which `Object.values` lists first, cannot occur for hex digests and are not modelled. Neither are keys such as `constructor` that collide with `Object.prototype`, in `grouping[entry.hash]` (api/src/index.ts:51) or in the description lookup `knownHashes[entry.hash]` (api/src/index.ts:39, api/src/index.ts:62), which `Wrappers.Lookup` models as a plain map lookup.
- The `hashGrouping` parameter is deleted from a local URL only (api/src/index.ts:207). `handleGroupedQuery` re-parses the request, so the parameter is still forwarded upstream. The model keeps no query string at all. The UI sends `sortBy` while the API reads `sortType` (api/src/index.ts:116); the model takes `sortType` as given.
- Sorting.SortGroups: the result is not stated to be stable. `Array.prototype.sort` is stable, and groups with equal keys keep their first-appearance order there. The model states only a permutation ordered by the key, and it sorts with an insertion sort.
- Handler.SortGroupList: the result is not stated to be stable, for the same reason as `Sorting.SortGroups`, which it calls. Groups whose keys tie are a permutation of each other's positions as far as the contract says, whereas `Array.prototype.sort` keeps them in first-appearance order.
- Handler.HandleGroupedQuery: the order of groups whose sort keys tie is not stated, for the same reason as `Handler.SortGroupList`. Every other part of the grouped body is stated.
- Paging.TwoFullPagesThenEmpty: pages of 250, 250 and then no hits take three requests, not two. The loop also asks for page 2 and stops only when that page comes back empty (api/src/index.ts:101-110), so `Paging.FetchAllPages` reports three requests.

=== FILE: grouping.dfy ===
/**
 * The grouping engine (`groupResults` in api/src/index.ts): one pass over the
 * accumulated hits builds a dictionary from content hash to a running group
 * summary, then lists the summaries in the order their hashes first appeared.
 *
 * The reference definitions below say what each group IS (the hits with its
 * hash, their earliest and latest timestamp, the first hit's attributes);
 * `GroupResults` is the single pass, proved to produce exactly that.
 */
module Grouping {
  import opened Wrappers
  import opened Normalizer

  /** One group summary (`GroupedData`, with the filename set materialised as a list). */
  datatype Group = Group(
    filenames: seq<string>,
    ext: string,
    family: string,
    formatid: string,
    hash: string,
    size: int,
    firstDate: int,
    lastDate: int,
    entries: seq<Entry>,
    description: Option<string>)

  // ---------------------------------------------------------------------------
  // Strings and lists

  /** `toLowerCase`, on the ASCII letters. */
  function LowerChar(c: char): (l: char)
    ensures !('A' <= l <= 'Z')
    ensures !('A' <= c <= 'Z') ==> l == c
    ensures 'A' <= c <= 'Z' ==> 'a' <= l <= 'z' && l as int - c as int == 'a' as int - 'A' as int
  {
    if 'A' <= c <= 'Z' then (c as int + 32) as char else c
  }

  function Lower(s: string): (r: string)
    ensures |r| == |s|
  {
    if s == [] then [] else [LowerChar(s[0])] + Lower(s[1..])
  }

  /** Lower-casing works character by character, so the result holds no capital. */
  lemma {:induction false} LowerAt(s: string)
    ensures forall i :: 0 <= i < |s| ==> Lower(s)[i] == LowerChar(s[i])
    ensures forall i :: 0 <= i < |s| ==> !('A' <= Lower(s)[i] <= 'Z')
  {
    if s != [] {
      LowerAt(s[1..]);
      forall i | 1 <= i < |s| ensures Lower(s)[i] == LowerChar(s[i]) {
        assert Lower(s)[i] == Lower(s[1..])[i - 1];
      }
    }
  }

  predicate NoDup<T(==)>(s: seq<T>)
  {
    forall i, j :: 0 <= i < j < |s| ==> s[i] != s[j]
  }

  /** `Set.add` on a set kept as its insertion-ordered list. */
  function AddName(names: seq<string>, x: string): (r: seq<string>)
    ensures names <= r
    ensures forall y :: y in r <==> y in names || y == x
  {
    if x in names then names else names + [x]
  }

  // ---------------------------------------------------------------------------
  // Reference definitions over the list of hits

  function Last<T>(s: seq<T>): T
    requires |s| > 0
  {
    s[|s| - 1]
  }

  function Init<T>(s: seq<T>): seq<T>
    requires |s| > 0
  {
    s[..|s| - 1]
  }

  /** The set of content hashes occurring in `rs`. */
  function HashesOf(rs: seq<RawRecord>): set<string>
  {
    if rs == [] then {} else HashesOf(Init(rs)) + {Last(rs).hash}
  }

  /** A hash occurs in `rs` exactly when some hit carries it. */
  lemma {:induction false} HashesOfIndex(rs: seq<RawRecord>)
    ensures forall i :: 0 <= i < |rs| ==> rs[i].hash in HashesOf(rs)
    ensures forall h :: h in HashesOf(rs) ==> exists i :: 0 <= i < |rs| && rs[i].hash == h
  {
    if rs != [] {
      HashesOfIndex(Init(rs));
    }
  }

  /** The hits of `rs` whose hash is `h`, in input order. */
  function WithHash(rs: seq<RawRecord>, h: string): (ws: seq<RawRecord>)
    ensures |ws| > 0 <==> h in HashesOf(rs)
  {
    if rs == [] then []
    else if Last(rs).hash == h then WithHash(Init(rs), h) + [Last(rs)]
    else WithHash(Init(rs), h)
  }

  /** The distinct hashes of `rs` in order of first appearance. */
  function Distinct(rs: seq<RawRecord>): (ds: seq<string>)
    ensures forall h :: h in ds <==> h in HashesOf(rs)
  {
    if rs == [] then []
    else
      var prev := Distinct(Init(rs));
      if Last(rs).hash in prev then prev else prev + [Last(rs).hash]
  }

  /** The index of the first hit with hash `h`. */
  function FirstIndex(rs: seq<RawRecord>, h: string): (k: nat)
    requires h in HashesOf(rs)
    ensures k < |rs| && rs[k].hash == h
    ensures forall m :: 0 <= m < k ==> rs[m].hash != h
  {
    HashesOfIndex(Init(rs));
    if h in HashesOf(Init(rs)) then FirstIndex(Init(rs), h) else |rs| - 1
  }

  /** The earliest timestamp among `rs`. */
  function MinTs(rs: seq<RawRecord>): int
    requires |rs| > 0
  {
    if |rs| == 1 then rs[0].ts
    else
      var m := MinTs(Init(rs));
      if Last(rs).ts < m then Last(rs).ts else m
  }

  /** The latest timestamp among `rs`. */
  function MaxTs(rs: seq<RawRecord>): int
    requires |rs| > 0
  {
    if |rs| == 1 then rs[0].ts
    else
      var m := MaxTs(Init(rs));
      if Last(rs).ts > m then Last(rs).ts else m
  }

  /** The filename list of a group: the first name lower-cased, later names as received, no repeats. */
  function Filenames(rs: seq<RawRecord>): (names: seq<string>)
    requires |rs| > 0
  {
    if |rs| == 1 then [Lower(rs[0].filename)]
    else AddName(Filenames(Init(rs)), Last(rs).filename)
  }

  /** Every hit of `rs` through the normaliser, in order. */
  function NormalizeAll(rs: seq<RawRecord>, known: map<string, string>, decode: string -> string): seq<Entry>
  {
    if rs == [] then [] else NormalizeAll(Init(rs), known, decode) + [Normalize(Last(rs), known, decode)]
  }

  /** The summary of the hits `rs` that share one hash. */
  function Summary(rs: seq<RawRecord>, known: map<string, string>, decode: string -> string): Group
    requires |rs| > 0
  {
    Group(Filenames(rs), rs[0].ext, rs[0].family, rs[0].formatid, rs[0].hash, rs[0].size,
          MinTs(rs), MaxTs(rs), NormalizeAll(rs, known, decode), Lookup(known, rs[0].hash))
  }

  /** What grouping `rs` must produce: one summary per distinct hash, in first-appearance order. */
  function Grouped(rs: seq<RawRecord>, known: map<string, string>, decode: string -> string): (gs: seq<Group>)
    ensures |gs| == |Distinct(rs)|
  {
    var ds := Distinct(rs);
    seq(|ds|, i requires 0 <= i < |ds| => Summary(WithHash(rs, ds[i]), known, decode))
  }

  // ---------------------------------------------------------------------------
  // The single pass

  /** The summary created on the first hit with a new hash. */
  function Seed(r: RawRecord, known: map<string, string>, decode: string -> string): (g: Group)
    ensures g == Summary([r], known, decode)
  {
    assert Init([r]) == [] && Last([r]) == r;
    assert NormalizeAll([r], known, decode) == [Normalize(r, known, decode)];
    Group([Lower(r.filename)], r.ext, r.family, r.formatid, r.hash, r.size,
          r.ts, r.ts, [Normalize(r, known, decode)], Lookup(known, r.hash))
  }

  /** A later hit with the same hash: append the entry, add the filename, widen the date range. */
  function Absorb(g: Group, r: RawRecord, known: map<string, string>, decode: string -> string): (g': Group)
    ensures g'.entries == g.entries + [Normalize(r, known, decode)]
    ensures g'.filenames == AddName(g.filenames, r.filename)
    ensures g'.firstDate <= g.firstDate && g'.firstDate <= r.ts && (g'.firstDate == g.firstDate || g'.firstDate == r.ts)
    ensures g'.lastDate >= g.lastDate && g'.lastDate >= r.ts && (g'.lastDate == g.lastDate || g'.lastDate == r.ts)
    ensures g'.hash == g.hash && g'.size == g.size && g'.ext == g.ext && g'.family == g.family
    ensures g'.formatid == g.formatid && g'.description == g.description
  {
    g.(entries := g.entries + [Normalize(r, known, decode)],
       filenames := AddName(g.filenames, r.filename),
       firstDate := if g.firstDate > r.ts then r.ts else g.firstDate,
       lastDate := if g.lastDate < r.ts then r.ts else g.lastDate)
  }

  /** Absorbing one more hit into a group's summary gives the summary of the longer list of hits. */
  lemma {:induction false} AbsorbIsSummary(rs: seq<RawRecord>, r: RawRecord, known: map<string, string>, decode: string -> string)
    requires |rs| > 0
    ensures Summary(rs + [r], known, decode) == Absorb(Summary(rs, known, decode), r, known, decode)
  {
    var rs' := rs + [r];
    assert Init(rs') == rs;
    assert Last(rs') == r;
    assert rs'[0] == rs[0];
  }

  /**
   * The loop state after the hits `rs`: `order` lists the dictionary's keys
   * in insertion order, and every key maps to the summary of its hits so far.
   */
  ghost predicate Built(rs: seq<RawRecord>, known: map<string, string>, decode: string -> string,
                        order: seq<string>, grouping: map<string, Group>)
  {
    && order == Distinct(rs)
    && (forall h :: h in grouping <==> h in order)
    && (forall h :: h in grouping ==>
          |WithHash(rs, h)| > 0 && grouping[h] == Summary(WithHash(rs, h), known, decode))
  }

  /** Unfolding the reference definitions at one more hit. */
  lemma {:induction false} Snoc(rs: seq<RawRecord>, r: RawRecord)
    ensures Distinct(rs + [r]) == if r.hash in Distinct(rs) then Distinct(rs) else Distinct(rs) + [r.hash]
    ensures forall h :: WithHash(rs + [r], h) == if r.hash == h then WithHash(rs, h) + [r] else WithHash(rs, h)
  {
    var rs' := rs + [r];
    assert Init(rs') == rs && Last(rs') == r;
  }

  /** A hit with a new hash starts that hash's group and leaves every other group as it was. */
  lemma {:induction false} SeedKeepsOthers(rs: seq<RawRecord>, r: RawRecord, known: map<string, string>,
                                           decode: string -> string, grouping: map<string, Group>, h: string)
    requires forall g :: g in grouping ==> |WithHash(rs, g)| > 0 && grouping[g] == Summary(WithHash(rs, g), known, decode)
    requires r.hash !in HashesOf(rs)
    requires h in grouping || h == r.hash
    ensures var grouping' := grouping[r.hash := Seed(r, known, decode)];
            |WithHash(rs + [r], h)| > 0 && grouping'[h] == Summary(WithHash(rs + [r], h), known, decode)
  {
    Snoc(rs, r);
    assert WithHash(rs, r.hash) == [];
  }

  /** A hit with a known hash extends that hash's group and leaves every other group as it was. */
  lemma {:induction false} AbsorbKeepsOthers(rs: seq<RawRecord>, r: RawRecord, known: map<string, string>,
                                             decode: string -> string, grouping: map<string, Group>, h: string)
    requires forall g :: g in grouping ==> |WithHash(rs, g)| > 0 && grouping[g] == Summary(WithHash(rs, g), known, decode)
    requires r.hash in grouping && h in grouping
    ensures var grouping' := grouping[r.hash := Absorb(grouping[r.hash], r, known, decode)];
            |WithHash(rs + [r], h)| > 0 && grouping'[h] == Summary(WithHash(rs + [r], h), known, decode)
  {
    Snoc(rs, r);
    if h == r.hash {
      AbsorbIsSummary(WithHash(rs, h), r, known, decode);
    }
  }

  lemma {:induction false} BuiltNewHash(rs: seq<RawRecord>, r: RawRecord, known: map<string, string>,
                                        decode: string -> string, order: seq<string>, grouping: map<string, Group>)
    requires Built(rs, known, decode, order, grouping)
    requires r.hash !in grouping
    ensures Built(rs + [r], known, decode, order + [r.hash], grouping[r.hash := Seed(r, known, decode)])
  {
    var grouping' := grouping[r.hash := Seed(r, known, decode)];
    Snoc(rs, r);
    forall h | h in grouping'
      ensures |WithHash(rs + [r], h)| > 0 && grouping'[h] == Summary(WithHash(rs + [r], h), known, decode)
    {
      SeedKeepsOthers(rs, r, known, decode, grouping, h);
    }
  }

  lemma {:induction false} BuiltKnownHash(rs: seq<RawRecord>, r: RawRecord, known: map<string, string>,
                                          decode: string -> string, order: seq<string>,
                                          grouping: map<string, Group>, grouping': map<string, Group>)
    requires Built(rs, known, decode, order, grouping)
    requires r.hash in grouping
    requires grouping' == grouping[r.hash := Absorb(grouping[r.hash], r, known, decode)]
    ensures Built(rs + [r], known, decode, order, grouping')
  {
    Snoc(rs, r);
    forall h | h in grouping'
      ensures |WithHash(rs + [r], h)| > 0 && grouping'[h] == Summary(WithHash(rs + [r], h), known, decode)
    {
      AbsorbKeepsOthers(rs, r, known, decode, grouping, h);
    }
  }

  /** Once every hit is in, listing the dictionary's values in key-insertion order gives the reference grouping. */
  lemma {:induction false} BuiltIsGrouped(rs: seq<RawRecord>, known: map<string, string>, decode: string -> string,
                                          order: seq<string>, grouping: map<string, Group>)
    requires Built(rs, known, decode, order, grouping)
    ensures forall h :: h in order ==> h in grouping
    ensures seq(|order|, i requires 0 <= i < |order| => grouping[order[i]]) == Grouped(rs, known, decode)
  {
  }

  lemma TakeNext<T>(s: seq<T>, k: nat)
    requires k < |s|
    ensures s[..k + 1] == s[..k] + [s[k]]
  {
  }

  /**
   * The forEach callback: file one hit under its hash, starting a new group
   * or absorbing it into the existing one.
   */
  method Visit(ghost seen: seq<RawRecord>, grouping: map<string, Group>, order: seq<string>,
               entry: RawRecord, known: map<string, string>, decode: string -> string)
    returns (grouping': map<string, Group>, order': seq<string>)
    requires Built(seen, known, decode, order, grouping)
    ensures Built(seen + [entry], known, decode, order', grouping')
  {
    if entry.hash !in grouping {
      BuiltNewHash(seen, entry, known, decode, order, grouping);
      grouping' := grouping[entry.hash := Seed(entry, known, decode)];
      order' := order + [entry.hash];
    } else {
      grouping' := grouping[entry.hash := Absorb(grouping[entry.hash], entry, known, decode)];
      order' := order;
      BuiltKnownHash(seen, entry, known, decode, order, grouping, grouping');
    }
  }

  /** `groupResults`: the forEach over the hits, filling a dictionary keyed by hash. */
  method GroupResults(raw: seq<RawRecord>, known: map<string, string>, decode: string -> string)
    returns (groups: seq<Group>)
    ensures groups == Grouped(raw, known, decode)
  {
    var grouping: map<string, Group> := map[];
    var order: seq<string> := [];   // the dictionary's keys in insertion order
    ghost var seen: seq<RawRecord> := [];
    var k := 0;
    while k < |raw|
      invariant 0 <= k <= |raw| && seen == raw[..k]
      invariant Built(seen, known, decode, order, grouping)
    {
      grouping, order := Visit(seen, grouping, order, raw[k], known, decode);
      TakeNext(raw, k);
      seen := seen + [raw[k]];
      k := k + 1;
    }
    assert seen == raw;
    BuiltIsGrouped(raw, known, decode, order, grouping);
    groups := seq(|order|, i requires 0 <= i < |order| => grouping[order[i]]);
  }

  // ---------------------------------------------------------------------------
  // Properties of the reference definitions

  /** `Set.add` keeps the set free of repeats, and adding a name already present changes nothing. */
  lemma {:induction false} AddNameProps(names: seq<string>, x: string)
    ensures NoDup(names) ==> NoDup(AddName(names, x))
    ensures x in names ==> AddName(names, x) == names
  {
  }

  /** The earliest timestamp is a lower bound of the hits' timestamps and is one of them. */
  lemma {:induction false} MinTsIsMinimum(rs: seq<RawRecord>)
    requires |rs| > 0
    ensures forall i :: 0 <= i < |rs| ==> MinTs(rs) <= rs[i].ts
    ensures exists i :: 0 <= i < |rs| && rs[i].ts == MinTs(rs)
  {
    if |rs| > 1 {
      MinTsIsMinimum(Init(rs));
      assert forall i :: 0 <= i < |rs| - 1 ==> rs[i] == Init(rs)[i];
      if !(Last(rs).ts < MinTs(Init(rs))) {
        var k :| 0 <= k < |rs| - 1 && Init(rs)[k].ts == MinTs(Init(rs));
        assert rs[k].ts == MinTs(rs);
      }
    } else {
      assert rs[0].ts == MinTs(rs);
    }
  }

  /** The latest timestamp is an upper bound of the hits' timestamps and is one of them. */
  lemma {:induction false} MaxTsIsMaximum(rs: seq<RawRecord>)
    requires |rs| > 0
    ensures forall i :: 0 <= i < |rs| ==> rs[i].ts <= MaxTs(rs)
    ensures exists i :: 0 <= i < |rs| && rs[i].ts == MaxTs(rs)
  {
    if |rs| > 1 {
      MaxTsIsMaximum(Init(rs));
      assert forall i :: 0 <= i < |rs| - 1 ==> rs[i] == Init(rs)[i];
      if !(Last(rs).ts > MaxTs(Init(rs))) {
        var k :| 0 <= k < |rs| - 1 && Init(rs)[k].ts == MaxTs(Init(rs));
        assert rs[k].ts == MaxTs(rs);
      }
    } else {
      assert rs[0].ts == MaxTs(rs);
    }
  }

  /** Entry `i` of a group is the normalised hit `i` of that group, so the timestamps carry over. */
  lemma {:induction false} NormalizeAllAt(rs: seq<RawRecord>, known: map<string, string>, decode: string -> string)
    ensures |NormalizeAll(rs, known, decode)| == |rs|
    ensures forall i :: 0 <= i < |rs| ==> NormalizeAll(rs, known, decode)[i] == Normalize(rs[i], known, decode)
  {
    if rs != [] {
      NormalizeAllAt(Init(rs), known, decode);
      assert forall i :: 0 <= i < |rs| - 1 ==> rs[i] == Init(rs)[i];
    }
  }

  /**
   * The filename list: no repeats, the first hit's name lower-cased in front,
   * every later hit's name as received, and nothing else.
   */
  lemma {:induction false} FilenamesProps(rs: seq<RawRecord>)
    requires |rs| > 0
    ensures NoDup(Filenames(rs))
    ensures |Filenames(rs)| > 0 && Filenames(rs)[0] == Lower(rs[0].filename)
    ensures forall j :: 1 <= j < |rs| ==> rs[j].filename in Filenames(rs)
    ensures forall x :: x in Filenames(rs) ==>
              x == Lower(rs[0].filename) || exists j :: 1 <= j < |rs| && rs[j].filename == x
  {
    if |rs| > 1 {
      var prev := Init(rs);
      FilenamesProps(prev);
      AddNameProps(Filenames(prev), Last(rs).filename);
      assert forall j :: 0 <= j < |rs| - 1 ==> rs[j] == prev[j];
    }
  }

  /**
   * Names are only ever appended: the list after the first `k` hits is a
   * prefix of the final list, so names stand in the order they first arrived.
   */
  lemma {:induction false} FilenamesInArrivalOrder(rs: seq<RawRecord>)
    requires |rs| > 0
    ensures forall k :: 1 <= k <= |rs| ==> Filenames(rs[..k]) <= Filenames(rs)
  {
    if |rs| > 1 {
      var prev := Init(rs);
      FilenamesInArrivalOrder(prev);
      forall k | 1 <= k <= |rs| ensures Filenames(rs[..k]) <= Filenames(rs) {
        if k < |rs| {
          assert rs[..k] == prev[..k];
        } else {
          assert rs[..k] == rs;
        }
      }
    } else {
      assert rs[..1] == rs;
    }
  }

  /** A hit is filed under `h` exactly when it is one of the hits and carries `h`. */
  lemma {:induction false} WithHashMembers(rs: seq<RawRecord>, h: string)
    ensures forall x :: x in WithHash(rs, h) <==> x in rs && x.hash == h
  {
    if rs != [] {
      WithHashMembers(Init(rs), h);
      assert rs == Init(rs) + [Last(rs)];
    }
  }

  /** The first hit filed under `h` is the first hit of the input with hash `h`. */
  lemma {:induction false} WithHashFirst(rs: seq<RawRecord>, h: string)
    requires h in HashesOf(rs)
    ensures WithHash(rs, h)[0] == rs[FirstIndex(rs, h)]
  {
    if h in HashesOf(Init(rs)) {
      WithHashFirst(Init(rs), h);
    } else {
      assert WithHash(Init(rs), h) == [];
    }
  }

  lemma {:induction false} DistinctNoDup(rs: seq<RawRecord>)
    ensures NoDup(Distinct(rs))
  {
    if rs != [] {
      DistinctNoDup(Init(rs));
    }
  }

  /** One hash per distinct hash of the input: the list is as long as the set of hashes is large. */
  lemma {:induction false} DistinctCount(rs: seq<RawRecord>)
    ensures |Distinct(rs)| == |HashesOf(rs)|
  {
    if rs != [] {
      DistinctCount(Init(rs));
      var h := Last(rs).hash;
      if h !in HashesOf(Init(rs)) {
        assert |HashesOf(Init(rs)) + {h}| == |HashesOf(Init(rs))| + 1;
      } else {
        assert HashesOf(rs) == HashesOf(Init(rs));
      }
    }
  }

  /** Hashes are listed by first appearance: an earlier group's hash first occurs earlier in the input. */
  lemma {:induction false} DistinctInFirstAppearanceOrder(rs: seq<RawRecord>)
    ensures forall i, j :: 0 <= i < j < |Distinct(rs)| ==>
              FirstIndex(rs, Distinct(rs)[i]) < FirstIndex(rs, Distinct(rs)[j])
  {
    if rs != [] {
      var prev := Init(rs);
      DistinctInFirstAppearanceOrder(prev);
      var ds, dp := Distinct(rs), Distinct(prev);
      forall i, j | 0 <= i < j < |ds| ensures FirstIndex(rs, ds[i]) < FirstIndex(rs, ds[j]) {
        assert ds[i] in dp;
        assert FirstIndex(rs, ds[i]) == FirstIndex(prev, ds[i]);
        if j < |dp| {
          assert ds[j] in dp;
          assert FirstIndex(rs, ds[j]) == FirstIndex(prev, ds[j]);
        }
      }
    }
  }

  /** Sum of the lengths of the hit lists filed under each hash of `ds`. */
  function FiledCount(rs: seq<RawRecord>, ds: seq<string>): nat
  {
    if ds == [] then 0 else FiledCount(rs, Init(ds)) + |WithHash(rs, Last(ds))|
  }

  lemma {:induction false} FiledCountStep(rs: seq<RawRecord>, r: RawRecord, ds: seq<string>)
    requires NoDup(ds)
    ensures FiledCount(rs + [r], ds) == FiledCount(rs, ds) + (if r.hash in ds then 1 else 0)
  {
    Snoc(rs, r);
    if ds != [] {
      assert NoDup(Init(ds));
      FiledCountStep(rs, r, Init(ds));
      assert ds == Init(ds) + [Last(ds)];
      assert r.hash in ds <==> r.hash in Init(ds) || r.hash == Last(ds);
      assert Last(ds) in Init(ds) ==> false;
    }
  }

  /** Every hit is filed under exactly one of the distinct hashes. */
  lemma {:induction false} FiledCountTotal(rs: seq<RawRecord>)
    ensures FiledCount(rs, Distinct(rs)) == |rs|
  {
    if rs != [] {
      var prev, r := Init(rs), Last(rs);
      assert rs == prev + [r];
      FiledCountTotal(prev);
      DistinctNoDup(prev);
      Snoc(prev, r);
      FiledCountStep(prev, r, Distinct(prev));
      if r.hash !in Distinct(prev) {
        var ds := Distinct(prev) + [r.hash];
        assert Init(ds) == Distinct(prev) && Last(ds) == r.hash;
        assert WithHash(prev, r.hash) == [];
      }
    }
  }

  /** Sum of the entry-list lengths over a list of groups. */
  function EntryCount(gs: seq<Group>): nat
  {
    if gs == [] then 0 else EntryCount(Init(gs)) + |Last(gs).entries|
  }

  lemma {:induction false} EntryCountIsFiled(rs: seq<RawRecord>, ds: seq<string>, gs: seq<Group>)
    requires |gs| == |ds|
    requires forall i :: 0 <= i < |gs| ==> |gs[i].entries| == |WithHash(rs, ds[i])|
    ensures EntryCount(gs) == FiledCount(rs, ds)
  {
    if gs != [] {
      EntryCountIsFiled(rs, Init(ds), Init(gs));
    }
  }

  // ---------------------------------------------------------------------------
  // What a grouped response promises

  /** The group listed at position `i` is the summary of the hits carrying its hash. */
  lemma GroupedAt(rs: seq<RawRecord>, known: map<string, string>, decode: string -> string, i: nat)
    requires i < |Grouped(rs, known, decode)|
    ensures var h := Distinct(rs)[i];
            h in HashesOf(rs) && |WithHash(rs, h)| > 0 &&
            Grouped(rs, known, decode)[i] == Summary(WithHash(rs, h), known, decode)
  {
  }

  /** The group at position `i` carries the `i`-th key. */
  lemma GroupHashIsKey(rs: seq<RawRecord>, known: map<string, string>, decode: string -> string, i: nat)
    requires i < |Grouped(rs, known, decode)|
    ensures Grouped(rs, known, decode)[i].hash == Distinct(rs)[i]
  {
    GroupedAt(rs, known, decode, i);
    var ws := WithHash(rs, Distinct(rs)[i]);
    assert ws[0] in ws;
    WithHashMembers(rs, Distinct(rs)[i]);
  }

  /** The hashes of the groups, in order, are the keys. */
  lemma GroupHashesAreKeys(rs: seq<RawRecord>, known: map<string, string>, decode: string -> string)
    ensures var gs := Grouped(rs, known, decode);
            forall i :: 0 <= i < |gs| ==> gs[i].hash == Distinct(rs)[i]
  {
    var gs := Grouped(rs, known, decode);
    forall i | 0 <= i < |gs| ensures gs[i].hash == Distinct(rs)[i] {
      GroupHashIsKey(rs, known, decode, i);
    }
  }

  /** Every hit's hash is the hash of some group. */
  lemma EveryHitHasGroup(rs: seq<RawRecord>, known: map<string, string>, decode: string -> string)
    ensures var gs := Grouped(rs, known, decode);
            forall k :: 0 <= k < |rs| ==> exists i :: 0 <= i < |gs| && gs[i].hash == rs[k].hash
  {
    var gs, ds := Grouped(rs, known, decode), Distinct(rs);
    GroupHashesAreKeys(rs, known, decode);
    HashesOfIndex(rs);
    forall k | 0 <= k < |rs| ensures exists i :: 0 <= i < |gs| && gs[i].hash == rs[k].hash {
      var i :| 0 <= i < |ds| && ds[i] == rs[k].hash;
      assert gs[i].hash == rs[k].hash;
    }
  }

  /**
   * There is exactly one group per distinct hash: as many groups as hashes,
   * no two groups share a hash, and every hit's hash has its group.
   */
  lemma GroupsMatchHashes(rs: seq<RawRecord>, known: map<string, string>, decode: string -> string)
    ensures var gs := Grouped(rs, known, decode);
            && |gs| == |HashesOf(rs)|
            && (forall i, j :: 0 <= i < j < |gs| ==> gs[i].hash != gs[j].hash)
            && (forall i :: 0 <= i < |gs| ==> gs[i].hash in HashesOf(rs))
            && (forall k :: 0 <= k < |rs| ==> exists i :: 0 <= i < |gs| && gs[i].hash == rs[k].hash)
  {
    DistinctCount(rs);
    DistinctNoDup(rs);
    GroupHashesAreKeys(rs, known, decode);
    EveryHitHasGroup(rs, known, decode);
  }

  /** No hit is lost or duplicated: the entry lists together are exactly as long as the input. */
  lemma GroupedEntriesTotal(rs: seq<RawRecord>, known: map<string, string>, decode: string -> string)
    ensures EntryCount(Grouped(rs, known, decode)) == |rs|
  {
    var gs, ds := Grouped(rs, known, decode), Distinct(rs);
    forall i | 0 <= i < |gs| ensures |gs[i].entries| == |WithHash(rs, ds[i])| {
      GroupedAt(rs, known, decode, i);
      NormalizeAllAt(WithHash(rs, ds[i]), known, decode);
    }
    EntryCountIsFiled(rs, ds, gs);
    FiledCountTotal(rs);
  }

  /** Groups come out in the order in which their hashes first appear in the input. */
  lemma GroupedInFirstAppearanceOrder(rs: seq<RawRecord>, known: map<string, string>, decode: string -> string)
    ensures var gs := Grouped(rs, known, decode);
            forall i, j :: 0 <= i < j < |gs| ==>
              gs[i].hash in HashesOf(rs) && gs[j].hash in HashesOf(rs) &&
              FirstIndex(rs, gs[i].hash) < FirstIndex(rs, gs[j].hash)
  {
    var gs := Grouped(rs, known, decode);
    GroupsMatchHashes(rs, known, decode);
    DistinctInFirstAppearanceOrder(rs);
    forall i | 0 <= i < |gs| ensures gs[i].hash == Distinct(rs)[i] {
      GroupedAt(rs, known, decode, i);
      var ws := WithHash(rs, Distinct(rs)[i]);
      assert ws[0] in ws;
      WithHashMembers(rs, Distinct(rs)[i]);
    }
  }

  /**
   * A group's entries are the normalised hits carrying its hash, in input
   * order: never empty, every entry carries the group's hash, and every hit
   * with that hash is among them.
   */
  lemma GroupEntries(rs: seq<RawRecord>, known: map<string, string>, decode: string -> string, i: nat)
    requires i < |Grouped(rs, known, decode)|
    ensures var g := Grouped(rs, known, decode)[i];
            var ws := WithHash(rs, g.hash);
            && g.entries == NormalizeAll(ws, known, decode)
            && |g.entries| == |ws| > 0
            && (forall j :: 0 <= j < |ws| ==> g.entries[j] == Normalize(ws[j], known, decode))
            && (forall x :: x in ws <==> x in rs && x.hash == g.hash)
  {
    GroupedAt(rs, known, decode, i);
    var h := Distinct(rs)[i];
    var ws := WithHash(rs, h);
    WithHashMembers(rs, h);
    assert ws[0] in ws;
    NormalizeAllAt(ws, known, decode);
  }

  /**
   * A group's date range is exactly the span of its hits' timestamps:
   * `firstDate` is their minimum, `lastDate` their maximum, so
   * `firstDate <= lastDate`.
   */
  lemma GroupDates(rs: seq<RawRecord>, known: map<string, string>, decode: string -> string, i: nat)
    requires i < |Grouped(rs, known, decode)|
    ensures var g := Grouped(rs, known, decode)[i];
            && |g.entries| > 0
            && g.firstDate <= g.lastDate
            && (forall j :: 0 <= j < |g.entries| ==> g.firstDate <= g.entries[j].ts <= g.lastDate)
            && (exists j :: 0 <= j < |g.entries| && g.entries[j].ts == g.firstDate)
            && (exists j :: 0 <= j < |g.entries| && g.entries[j].ts == g.lastDate)
  {
    GroupedAt(rs, known, decode, i);
    var ws := WithHash(rs, Distinct(rs)[i]);
    var g := Grouped(rs, known, decode)[i];
    NormalizeAllAt(ws, known, decode);
    MinTsIsMinimum(ws);
    MaxTsIsMaximum(ws);
    assert forall j :: 0 <= j < |ws| ==> g.entries[j].ts == ws[j].ts;
    var lo :| 0 <= lo < |ws| && ws[lo].ts == MinTs(ws);
    var hi :| 0 <= hi < |ws| && ws[hi].ts == MaxTs(ws);
    assert g.entries[lo].ts == g.firstDate;
    assert g.entries[hi].ts == g.lastDate;
  }

  /**
   * Size, extension, family, format id and description belong to the first
   * hit seen with the group's hash; later hits never change them.
   */
  lemma GroupFirstSeen(rs: seq<RawRecord>, known: map<string, string>, decode: string -> string, i: nat)
    requires i < |Grouped(rs, known, decode)|
    ensures var g := Grouped(rs, known, decode)[i];
            g.hash in HashesOf(rs) &&
            var first := rs[FirstIndex(rs, g.hash)];
            && g.size == first.size && g.ext == first.ext && g.family == first.family
            && g.formatid == first.formatid && g.hash == first.hash
            && (g.description.Some? <==> g.hash in known)
            && (g.hash in known ==> g.description.value == known[g.hash])
  {
    GroupedAt(rs, known, decode, i);
    var h := Distinct(rs)[i];
    var ws := WithHash(rs, h);
    assert ws[0] in ws;
    WithHashMembers(rs, h);
    WithHashFirst(rs, h);
  }

  /**
   * A group's filenames have no repeats; the first is the first hit's
   * filename lower-cased; every later hit's filename is there as received,
   * and nothing else is.
   */
  lemma GroupFilenames(rs: seq<RawRecord>, known: map<string, string>, decode: string -> string, i: nat)
    requires i < |Grouped(rs, known, decode)|
    ensures var g := Grouped(rs, known, decode)[i];
            g.hash in HashesOf(rs) &&
            var ws := WithHash(rs, g.hash);
            && NoDup(g.filenames)
            && |g.filenames| > 0 && g.filenames[0] == Lower(rs[FirstIndex(rs, g.hash)].filename)
            && (forall j :: 1 <= j < |ws| ==> ws[j].filename in g.filenames)
            && (forall x :: x in g.filenames ==>
                  x == g.filenames[0] || exists j :: 1 <= j < |ws| && ws[j].filename == x)
            && (forall k :: 1 <= k <= |ws| ==> Filenames(ws[..k]) <= g.filenames)
  {
    GroupedAt(rs, known, decode, i);
    var h := Distinct(rs)[i];
    var ws := WithHash(rs, h);
    assert ws[0] in ws;
    WithHashMembers(rs, h);
    WithHashFirst(rs, h);
    FilenamesProps(ws);
    FilenamesInArrivalOrder(ws);
  }
}

=== FILE: handler.dfy ===
/**
 * The two response bodies the service builds (api/src/index.ts): the grouped
 * query fetches every page, groups the hits by hash, optionally sorts the
 * groups and reports how many there are; the regular query normalises one
 * page of hits and reports the total read from the summary text.
 */
module Handler {
  import opened Wrappers
  import opened Normalizer
  import opened Grouping
  import opened Paging
  import opened Sorting
  import opened TotalCount

  /** The JSON body: `type` is "GROUPED" or "SINGLE"; a SINGLE count of None is `undefined`. */
  datatype Body =
    | GroupedBody(groups: seq<Group>, groupCount: nat)
    | SingleBody(entries: seq<Entry>, total: Option<nat>)

  function TypeTag(b: Body): (tag: string)
    ensures tag == "GROUPED" <==> b.GroupedBody?
    ensures tag == "SINGLE" <==> b.SingleBody?
  {
    match b
    case GroupedBody(_, _) => "GROUPED"
    case SingleBody(_, _) => "SINGLE"
  }

  /**
   * `handleGroupedQuery` with the upstream as the page oracle `page` and the
   * `sortType` parameter as `sortType`.
   */
  method HandleGroupedQuery(page: nat -> seq<RawRecord>, known: map<string, string>,
                            decode: string -> string, sortType: Option<string>)
    returns (body: Body)
    ensures body.GroupedBody?
    ensures var raw := Pages(page, StopPage(page, 0));
            && multiset(body.groups) == multiset(Grouped(raw, known, decode))
            && body.groupCount == |body.groups| == |HashesOf(raw)|
    ensures forall i, j :: 0 <= i < j < |body.groups| ==> body.groups[i].hash != body.groups[j].hash
    ensures ParseSortType(sortType).Some? ==> NonIncreasing(ParseSortType(sortType).value, body.groups)
    ensures ParseSortType(sortType).None? ==>
              body.groups == Grouped(Pages(page, StopPage(page, 0)), known, decode)
  {
    var total, _ := FetchAllPages(page);
    var groups := GroupResults(total, known, decode);
    GroupsMatchHashes(total, known, decode);
    var sorted := SortGroupList(groups, sortType);
    PermutationKeepsDistinctHashes(groups, sorted);
    assert |sorted| == |multiset(sorted)| == |multiset(groups)| == |groups|;
    body := GroupedBody(sorted, |sorted|);
  }

  /** `groupedResults.sort(...)` on the list `groupResults` returned, copied into an array and sorted there. */
  method SortGroupList(groups: seq<Group>, sortType: Option<string>) returns (sorted: seq<Group>)
    ensures multiset(sorted) == multiset(groups)
    ensures ParseSortType(sortType).Some? ==> NonIncreasing(ParseSortType(sortType).value, sorted)
    ensures ParseSortType(sortType).None? ==> sorted == groups
  {
    var a := new Group[|groups|](i requires 0 <= i < |groups| => groups[i]);
    assert a[..] == groups;
    SortGroups(a, sortType);
    sorted := a[..];
  }

  /** Reordering a list whose hashes are pairwise distinct keeps them pairwise distinct. */
  lemma PermutationKeepsDistinctHashes(s: seq<Group>, t: seq<Group>)
    requires forall i, j :: 0 <= i < j < |s| ==> s[i].hash != s[j].hash
    requires multiset(s) == multiset(t)
    ensures forall i, j :: 0 <= i < j < |t| ==> t[i].hash != t[j].hash
  {
    forall i, j | 0 <= i < j < |t|
      ensures t[i].hash != t[j].hash
    {
      if t[i].hash == t[j].hash {
        assert t[i] in multiset(s) && t[j] in multiset(s);
        var x :| 0 <= x < |s| && s[x] == t[i];
        var y :| 0 <= y < |s| && s[y] == t[j];
        if x == y {
          SameElementTwice(t, i, j);
          assert multiset(s)[s[x]] >= 2;
          OnlyOnce(s, x);
        }
      }
    }
  }

  /** An element sitting at two positions occurs at least twice. */
  lemma SameElementTwice<T>(t: seq<T>, i: int, j: int)
    requires 0 <= i < j < |t| && t[i] == t[j]
    ensures multiset(t)[t[i]] >= 2
  {
    assert t == t[..i] + [t[i]] + t[i + 1..j] + [t[j]] + t[j + 1..];
  }

  /** In a list with pairwise distinct hashes, each element occurs once. */
  lemma OnlyOnce(s: seq<Group>, x: int)
    requires forall i, j :: 0 <= i < j < |s| ==> s[i].hash != s[j].hash
    requires 0 <= x < |s|
    ensures multiset(s)[s[x]] == 1
  {
    var rest := s[..x] + s[x + 1..];
    assert s == s[..x] + [s[x]] + s[x + 1..];
    assert s[x] !in rest;
  }

  /**
   * The body of `handleRegularQuery` once both upstream answers are in:
   * `records` is the JSON page, `text` the summary element's text (None when
   * the element is missing).
   */
  function RegularBody(records: seq<RawRecord>, text: Option<string>,
                       known: map<string, string>, decode: string -> string): (body: Body)
    ensures body.SingleBody?
    ensures |body.entries| == |records|
    ensures forall i :: 0 <= i < |records| ==> body.entries[i] == Normalize(records[i], known, decode)
    ensures forall i :: 0 <= i < |records| ==>
              && body.entries[i].hash == records[i].hash
              && body.entries[i].href == Origin + records[i].href
              && (body.entries[i].description.Some? <==> records[i].hash in known)
    ensures body.total == ParseTotal(text)
  {
    SingleBody(seq(|records|, i requires 0 <= i < |records| => Normalize(records[i], known, decode)),
               ParseTotal(text))
  }
}

=== FILE: normalizer.dfy ===
/**
 * The result normaliser (`parseResult` in api/src/index.ts): one upstream
 * search hit becomes a record with an absolute link, a parent-folder label
 * and the description known for its content hash.
 */
module Normalizer {
  import opened Wrappers

  /** The fixed origin of the upstream archive service. */
  const Origin: string := "https://discmaster.textfiles.com"

  /** One upstream search hit (`DiscmasterData` as received). */
  datatype RawRecord = RawRecord(
    ext: string,
    family: string,
    filename: string,
    formatid: string,
    hash: string,
    href: string,
    itemid: int,
    size: int,
    ts: int)

  /** A hit after normalisation: the raw fields, `href` made absolute, plus `parent` and `description`. */
  datatype Entry = Entry(
    ext: string,
    family: string,
    filename: string,
    formatid: string,
    hash: string,
    href: string,
    itemid: int,
    size: int,
    ts: int,
    parent: string,
    description: Option<string>)

  /** `s.split('/')` joined back: the parts separated by single slashes. */
  function Join(parts: seq<string>): string
  {
    if parts == [] then ""
    else if |parts| == 1 then parts[0]
    else parts[0] + "/" + Join(parts[1..])
  }

  /** `s.split('/')`: the maximal slash-free pieces of `s`, left to right; never empty. */
  function Split(s: string): (parts: seq<string>)
    ensures |parts| >= 1
    decreases |s|
  {
    if s == [] then [""]
    else
      var rest := Split(s[1..]);
      if s[0] == '/' then [""] + rest
      else [[s[0]] + rest[0]] + rest[1..]
  }

  lemma {:induction false} JoinCons(c: char, parts: seq<string>)
    requires |parts| >= 1
    ensures Join([[c] + parts[0]] + parts[1..]) == [c] + Join(parts)
  {
    var p := [[c] + parts[0]] + parts[1..];
    assert p[0] == [c] + parts[0];
    assert p[1..] == parts[1..];
    if |parts| == 1 {
      assert |p| == 1;
    } else {
      var tail := Join(parts[1..]);
      assert Join(p) == p[0] + "/" + tail;
      assert Join(parts) == parts[0] + "/" + tail;
      assert ([c] + parts[0]) + "/" + tail == [c] + (parts[0] + "/" + tail);
    }
  }

  /** No piece holds a slash. */
  lemma {:induction false} SplitPiecesSlashFree(s: string)
    ensures forall i :: 0 <= i < |Split(s)| ==> '/' !in Split(s)[i]
    decreases |s|
  {
    if s != [] {
      var rest := Split(s[1..]);
      SplitPiecesSlashFree(s[1..]);
      if s[0] != '/' {
        assert '/' !in [s[0]] + rest[0];
        assert Split(s) == [[s[0]] + rest[0]] + rest[1..];
        forall i | 1 <= i < |Split(s)| ensures '/' !in Split(s)[i] {
          assert Split(s)[i] == rest[i];
        }
      }
    }
  }

  /** Splitting loses nothing: the pieces joined with '/' give back the link. */
  lemma {:induction false} JoinSplit(s: string)
    ensures Join(Split(s)) == s
    decreases |s|
  {
    if s != [] {
      var rest := Split(s[1..]);
      JoinSplit(s[1..]);
      if s[0] == '/' {
        var p := [""] + rest;
        assert p[1..] == rest;
        assert s == [s[0]] + s[1..];
      } else {
        JoinCons(s[0], rest);
        assert s == [s[0]] + s[1..];
      }
    }
  }

  /** A slash-free string is one piece. */
  lemma {:induction false} SplitNoSlash(s: string)
    requires '/' !in s
    ensures Split(s) == [s]
    decreases |s|
  {
    if s != [] {
      assert '/' !in s[1..] by {
        forall i | 0 <= i < |s[1..]| ensures s[1..][i] != '/' {
          assert s[1..][i] == s[i + 1];
        }
      }
      SplitNoSlash(s[1..]);
      assert s == [s[0]] + s[1..];
    }
  }

  /** One more character in front: a slash starts a new piece, anything else joins the first piece. */
  lemma SplitCons(c: char, t: string)
    ensures Split([c] + t) == if c == '/' then [""] + Split(t) else [[c] + Split(t)[0]] + Split(t)[1..]
  {
    assert ([c] + t)[1..] == t;
  }

  /** Gluing `x` to the first piece commutes with appending further pieces. */
  lemma GlueFirst(x: string, ra: seq<string>, rb: seq<string>)
    requires |ra| >= 1
    ensures [x + (ra + rb)[0]] + (ra + rb)[1..] == ([x + ra[0]] + ra[1..]) + rb
  {
    assert (ra + rb)[1..] == ra[1..] + rb;
  }

  /** The step of `SplitAppend` for a leading slash: it adds an empty first piece on both sides. */
  lemma SlashAppend(ra: seq<string>, rb: seq<string>, whole: seq<string>, front: seq<string>)
    requires whole == [""] + (ra + rb) && front == [""] + ra
    ensures whole == front + rb
  {
  }

  /** The step of `SplitAppend`: one more character in front of `u`, the text `t/b`. */
  lemma SplitConsAppend(c: char, t: string, u: string, b: string)
    requires Split(u) == Split(t) + Split(b)
    ensures Split([c] + u) == Split([c] + t) + Split(b)
  {
    SplitCons(c, t);
    SplitCons(c, u);
    if c == '/' {
      SlashAppend(Split(t), Split(b), Split([c] + u), Split([c] + t));
    } else {
      GlueFirst([c], Split(t), Split(b));
    }
  }

  /** Splitting `a/b` gives the pieces of `a` followed by the pieces of `b`. */
  lemma {:induction false} SplitAppend(a: string, b: string)
    ensures Split(a + "/" + b) == Split(a) + Split(b)
    decreases |a|
  {
    if a == [] {
      SplitCons('/', b);
      assert a + "/" + b == ['/'] + b;
    } else {
      var t := a[1..];
      SplitAppend(t, b);
      SplitConsAppend(a[0], t, t + "/" + b, b);
      assert a == [a[0]] + t;
      assert a + "/" + b == [a[0]] + (t + "/" + b);
    }
  }

  /**
   * `pathParts[pathParts.length - 2] || ''`: the second-to-last piece of the
   * link, or the empty string when the link has fewer than two pieces.
   */
  function RawParent(href: string): (p: string)
    ensures '/' !in p
  {
    SplitPiecesSlashFree(href);
    var parts := Split(href);
    if |parts| >= 2 then parts[|parts| - 2] else ""
  }

  /** A link `.../folder/name` names `folder` as its raw parent. */
  lemma ParentOfNestedLink(prefix: string, folder: string, name: string)
    requires '/' !in folder && '/' !in name
    ensures RawParent(prefix + "/" + folder + "/" + name) == folder
  {
    SplitNoSlash(folder);
    SplitNoSlash(name);
    SplitAppend(folder, name);
    assert prefix + "/" + folder + "/" + name == prefix + "/" + (folder + "/" + name);
    SplitAppend(prefix, folder + "/" + name);
  }

  /** A link `folder/name` with a single slash names `folder` as its raw parent. */
  lemma ParentOfShortLink(folder: string, name: string)
    requires '/' !in folder && '/' !in name
    ensures RawParent(folder + "/" + name) == folder
  {
    SplitNoSlash(folder);
    SplitNoSlash(name);
    SplitAppend(folder, name);
  }

  /** A link without any slash has no parent piece: the label falls back to ''. */
  lemma ParentOfBareName(name: string)
    requires '/' !in name
    ensures RawParent(name) == ""
  {
    SplitNoSlash(name);
  }

  /** Directory heuristic: a decoded parent without '.' is a folder and gets a trailing '/'. */
  function ParentLabel(decoded: string): (tag: string)
    ensures tag == decoded || tag == decoded + "/"
    ensures tag == decoded + "/" <==> '.' !in decoded
  {
    if '.' !in decoded then decoded + "/" else decoded
  }

  /**
   * `parseResult`: `decode` stands for `decodeURIComponent`, `known` for the
   * hash-to-description store loaded at start-up.
   */
  function Normalize(e: RawRecord, known: map<string, string>, decode: string -> string): (r: Entry)
    ensures r.href == Origin + e.href
    ensures r.parent == ParentLabel(decode(RawParent(e.href)))
    ensures r.description.Some? <==> e.hash in known
    ensures e.hash in known ==> r.description.value == known[e.hash]
    ensures r.ext == e.ext && r.family == e.family && r.filename == e.filename
    ensures r.formatid == e.formatid && r.hash == e.hash && r.itemid == e.itemid
    ensures r.size == e.size && r.ts == e.ts
  {
    var parent := ParentLabel(decode(RawParent(e.href)));
    Entry(e.ext, e.family, e.filename, e.formatid, e.hash, Origin + e.href,
          e.itemid, e.size, e.ts, parent, Lookup(known, e.hash))
  }

  /** The parent label of a link `.../SomeFolder/file.txt` is `SomeFolder/` when the decoded folder has no '.'. */
  lemma NormalizeFolderParent(e: RawRecord, known: map<string, string>, decode: string -> string,
                              prefix: string, folder: string, name: string)
    requires e.href == prefix + "/" + folder + "/" + name
    requires '/' !in folder && '/' !in name
    ensures Normalize(e, known, decode).parent ==
            (if '.' in decode(folder) then decode(folder) else decode(folder) + "/")
  {
    ParentOfNestedLink(prefix, folder, name);
  }

  /** A link with no parent piece yields the label `decode("")` with a '/' unless it holds a '.'. */
  lemma NormalizeBareParent(e: RawRecord, known: map<string, string>, decode: string -> string)
    requires '/' !in e.href
    requires decode("") == ""
    ensures Normalize(e, known, decode).parent == "/"
  {
    ParentOfBareName(e.href);
  }
}

=== FILE: paging.dfy ===
/**
 * The pagination loop of the grouped pipeline (`handleGroupedQuery` in
 * api/src/index.ts): pages 0, 1, 2, ... of the upstream search are fetched
 * one after the other, at 250 hits a page, until a page comes back empty or
 * the page number passes 20.
 *
 * The upstream service is the oracle `page`: `page(n)` is the JSON array the
 * search answers for `pageNum=n` with the caller's other query parameters,
 * `limit=250` and `outputAs=json`.
 */
module Paging {
  import opened Normalizer

  /** `GROUPING_REQUEST_LIMIT`: hits per upstream page. */
  const PageLimit: nat := 250
  /** The loop stops before requesting any page numbered above this. */
  const LastPage: nat := 20

  /** Pages 0 .. n-1 concatenated in order. */
  function Pages(page: nat -> seq<RawRecord>, n: nat): seq<RawRecord>
  {
    if n == 0 then [] else Pages(page, n - 1) + page(n - 1)
  }

  /**
   * From page `n` on, the number of the first page that ends the loop: the
   * first empty page, or `LastPage + 1` when pages `n .. LastPage` all have hits.
   */
  function StopPage(page: nat -> seq<RawRecord>, n: nat): (k: nat)
    requires n <= LastPage + 1
    ensures n <= k <= LastPage + 1
    ensures forall i :: n <= i < k ==> page(i) != []
    ensures k <= LastPage ==> page(k) == []
    decreases LastPage + 1 - n
  {
    if n > LastPage || page(n) == [] then n else StopPage(page, n + 1)
  }

  /** The stopping page is the only one with those properties: the first empty page, capped. */
  lemma {:induction false} StopPageUnique(page: nat -> seq<RawRecord>, n: nat, k: nat)
    requires n <= k <= LastPage + 1
    requires forall i :: n <= i < k ==> page(i) != []
    requires k <= LastPage ==> page(k) == []
    ensures StopPage(page, n) == k
    decreases k - n
  {
    if n < k {
      StopPageUnique(page, n + 1, k);
    }
  }

  /** The loop over pages, with the requests it issues listed by page number. */
  method FetchAllPages(page: nat -> seq<RawRecord>) returns (total: seq<RawRecord>, requested: seq<nat>)
    ensures var k := StopPage(page, 0);
            && total == Pages(page, k)
            && |requested| == (if k <= LastPage then k + 1 else k)
    ensures 1 <= |requested| <= LastPage + 1
    ensures forall i :: 0 <= i < |requested| ==> requested[i] == i
  {
    var pageNumber: nat := 0;
    total := [];
    requested := [];
    while true
      invariant pageNumber <= LastPage + 1
      invariant forall i :: 0 <= i < pageNumber ==> page(i) != []
      invariant total == Pages(page, pageNumber)
      invariant |requested| == pageNumber
      invariant forall i :: 0 <= i < |requested| ==> requested[i] == i
      decreases LastPage + 1 - pageNumber
    {
      if pageNumber > LastPage {
        StopPageUnique(page, 0, pageNumber);
        break;
      }
      requested := requested + [pageNumber];
      var responseData := page(pageNumber);
      if |responseData| == 0 {
        StopPageUnique(page, 0, pageNumber);
        break;
      }
      total := total + responseData;
      pageNumber := pageNumber + 1;
    }
  }

  /** With an upstream that honours the page size, the loop gathers at most 21 pages of 250 hits. */
  lemma {:induction false} PagesBounded(page: nat -> seq<RawRecord>, n: nat)
    requires forall i :: |page(i)| <= PageLimit
    ensures |Pages(page, n)| <= PageLimit * n
  {
    if n > 0 {
      PagesBounded(page, n - 1);
    }
  }

  lemma TotalAtMost5250(page: nat -> seq<RawRecord>)
    requires forall i :: |page(i)| <= PageLimit
    ensures |Pages(page, StopPage(page, 0))| <= PageLimit * (LastPage + 1)
  {
    PagesBounded(page, StopPage(page, 0));
  }

  /** Two full pages then an empty one: three requests, two pages kept, 500 hits. */
  lemma TwoFullPagesThenEmpty(page: nat -> seq<RawRecord>)
    requires |page(0)| == PageLimit && |page(1)| == PageLimit && page(2) == []
    ensures StopPage(page, 0) == 2
    ensures |Pages(page, StopPage(page, 0))| == 500
  {
    StopPageUnique(page, 0, 2);
  }
}

=== FILE: sorting.dfy ===
/**
 * The optional sort of the grouped list (`groupedResults.sort` in
 * `handleGroupedQuery`, api/src/index.ts), selected by the `sortType` query
 * parameter: `ts` puts the latest `firstDate` first, `size` the largest size
 * first, `hash` the greatest hash first; any other value, or none, keeps the
 * first-appearance order.
 */
module Sorting {
  import opened Wrappers
  import opened Grouping

  datatype SortKey = ByTs | BySize | ByHash

  /** The recognised values of `sortType`; an absent, empty or unknown value selects no sort. */
  function ParseSortType(sortType: Option<string>): (k: Option<SortKey>)
    ensures k == Some(ByTs) <==> sortType == Some("ts")
    ensures k == Some(BySize) <==> sortType == Some("size")
    ensures k == Some(ByHash) <==> sortType == Some("hash")
  {
    match sortType
    case None => None
    case Some(s) =>
      if s == "ts" then Some(ByTs)
      else if s == "size" then Some(BySize)
      else if s == "hash" then Some(ByHash)
      else None
  }

  /** Plain lexicographic order on strings (the locale-independent reading of `localeCompare`). */
  predicate StrLess(a: string, b: string)
    ensures StrLess(a, b) ==> a != b
    ensures a < b ==> StrLess(a, b)
  {
    if a == [] then b != []
    else if b == [] then false
    else a[0] < b[0] || (a[0] == b[0] && StrLess(a[1..], b[1..]))
  }

  lemma {:induction false} StrLessAsymmetric(a: string, b: string)
    ensures StrLess(a, b) ==> !StrLess(b, a)
  {
    if a != [] && b != [] && a[0] == b[0] {
      StrLessAsymmetric(a[1..], b[1..]);
    }
  }

  lemma {:induction false} StrLessTransitive(a: string, b: string, c: string)
    requires StrLess(a, b) && StrLess(b, c)
    ensures StrLess(a, c)
  {
    if a != [] && a[0] == b[0] && b[0] == c[0] {
      StrLessTransitive(a[1..], b[1..], c[1..]);
    }
  }

  lemma {:induction false} StrLessTotal(a: string, b: string)
    ensures a == b || StrLess(a, b) || StrLess(b, a)
  {
    if a != [] && b != [] && a[0] == b[0] {
      StrLessTotal(a[1..], b[1..]);
      if a[1..] == b[1..] {
        assert a == [a[0]] + a[1..] && b == [b[0]] + b[1..];
      }
    }
  }

  /** "Not below" is transitive, so a chain of neighbours orders the whole list. */
  lemma NotLessTransitive(a: string, b: string, c: string)
    requires !StrLess(a, b) && !StrLess(b, c)
    ensures !StrLess(a, c)
  {
    StrLessTotal(a, b);
    if StrLess(a, c) && StrLess(b, a) {
      StrLessTransitive(b, a, c);
    }
  }

  /** `a.localeCompare(b)`, read as plain lexicographic order: negative, zero or positive. */
  function LocaleCompare(a: string, b: string): (r: int)
    ensures r < 0 <==> StrLess(a, b)
    ensures r == 0 <==> a == b
    ensures r > 0 <==> StrLess(b, a)
  {
    if a == [] then (if b == [] then 0 else -1)
    else if b == [] then 1
    else if a[0] < b[0] then -1
    else if a[0] > b[0] then 1
    else
      assert a == [a[0]] + a[1..] && b == [b[0]] + b[1..];
      LocaleCompare(a[1..], b[1..])
  }

  /** The comparator handed to `sort` for each key: `b.firstDate - a.firstDate`, `b.size - a.size`, `b.hash.localeCompare(a.hash)`. */
  function Comparator(key: SortKey, a: Group, b: Group): (r: int)
    ensures key == ByTs ==> (r < 0 <==> a.firstDate > b.firstDate) && (r == 0 <==> a.firstDate == b.firstDate)
    ensures key == BySize ==> (r < 0 <==> a.size > b.size) && (r == 0 <==> a.size == b.size)
    ensures key == ByHash ==> (r < 0 <==> StrLess(b.hash, a.hash)) && (r == 0 <==> a.hash == b.hash)
  {
    match key
    case ByTs => b.firstDate - a.firstDate
    case BySize => b.size - a.size
    case ByHash => LocaleCompare(b.hash, a.hash)
  }

  /** `x` must come strictly before `y`: the comparator answers a negative number for `(x, y)`. */
  predicate Ahead(key: SortKey, x: Group, y: Group)
  {
    match key
    case ByTs => x.firstDate > y.firstDate
    case BySize => x.size > y.size
    case ByHash => StrLess(y.hash, x.hash)
  }

  /** `Ahead` is exactly the comparator's "negative" answer, for every key. */
  lemma AheadIsNegative(key: SortKey, x: Group, y: Group)
    ensures Ahead(key, x, y) <==> Comparator(key, x, y) < 0
  {
  }

  lemma AheadAsymmetric(key: SortKey, x: Group, y: Group)
    ensures Ahead(key, x, y) ==> !Ahead(key, y, x)
  {
    if key == ByHash {
      StrLessAsymmetric(y.hash, x.hash);
    }
  }

  /** No group is ahead of the one before it. */
  ghost predicate NonIncreasing(key: SortKey, s: seq<Group>)
  {
    forall i :: 0 < i < |s| ==> !Ahead(key, s[i], s[i - 1])
  }

  /** Ordered by `key` on positions 1 .. n-1: no group ahead of its left neighbour. */
  ghost predicate SortedUpTo(a: array<Group>, key: SortKey, n: int)
    reads a
  {
    forall m :: 0 < m < n && m < a.Length ==> !Ahead(key, a[m], a[m - 1])
  }

  method Swap(a: array<Group>, i: int, j: int)
    requires 0 <= i < a.Length && 0 <= j < a.Length
    modifies a
    ensures a[i] == old(a[j]) && a[j] == old(a[i])
    ensures forall m :: 0 <= m < a.Length && m != i && m != j ==> a[m] == old(a[m])
    ensures multiset(a[..]) == multiset(old(a[..]))
  {
    a[i], a[j] := a[j], a[i];
  }

  /** Move `a[i]` left past every group it is strictly ahead of, so that `a[..i+1]` is ordered. */
  method SinkLeft(a: array<Group>, key: SortKey, i: int)
    requires 0 < i < a.Length
    requires SortedUpTo(a, key, i)
    modifies a
    ensures SortedUpTo(a, key, i + 1)
    ensures forall m :: i < m < a.Length ==> a[m] == old(a[m])
    ensures multiset(a[..]) == multiset(old(a[..]))
  {
    var j := i;
    while j > 0 && Ahead(key, a[j], a[j - 1])
      invariant 0 <= j <= i
      invariant forall m :: 0 < m <= i && m != j ==> !Ahead(key, a[m], a[m - 1])
      invariant 0 < j < i ==> !Ahead(key, a[j + 1], a[j - 1])
      invariant forall m :: i < m < a.Length ==> a[m] == old(a[m])
      invariant multiset(a[..]) == multiset(old(a[..]))
    {
      AheadAsymmetric(key, a[j], a[j - 1]);
      Swap(a, j, j - 1);
      j := j - 1;
    }
  }

  /**
   * An in-place insertion sort: each group moves left past the groups it is
   * strictly ahead of. Equal keys never swap, so the sort is stable by
   * construction, but the contract does not state stability.
   */
  method InsertionSort(a: array<Group>, key: SortKey)
    modifies a
    ensures NonIncreasing(key, a[..])
    ensures multiset(a[..]) == multiset(old(a[..]))
  {
    var i := 1;
    while i < a.Length
      invariant 1 <= i
      invariant SortedUpTo(a, key, i)
      invariant multiset(a[..]) == multiset(old(a[..]))
    {
      SinkLeft(a, key, i);
      i := i + 1;
    }
  }

  /** The sort post-pass: sort by the recognised key, otherwise leave the list alone. */
  method SortGroups(a: array<Group>, sortType: Option<string>)
    modifies a
    ensures multiset(a[..]) == multiset(old(a[..]))
    ensures ParseSortType(sortType).Some? ==> NonIncreasing(ParseSortType(sortType).value, a[..])
    ensures ParseSortType(sortType).None? ==> a[..] == old(a[..])
  {
    var key := ParseSortType(sortType);
    if key.Some? {
      InsertionSort(a, key.value);
    }
  }

  /** Sorted by `ts`, every earlier group starts no earlier than every later one. */
  lemma {:induction false} ByTsPairwise(s: seq<Group>)
    requires NonIncreasing(ByTs, s)
    ensures forall i, j :: 0 <= i < j < |s| ==> s[j].firstDate <= s[i].firstDate
  {
    if |s| > 1 {
      var init := s[..|s| - 1];
      assert forall i :: 0 <= i < |s| - 1 ==> init[i] == s[i];
      ByTsPairwise(init);
      forall i, j | 0 <= i < j < |s| ensures s[j].firstDate <= s[i].firstDate {
        if j == |s| - 1 && i < j - 1 {
          assert s[j].firstDate <= s[j - 1].firstDate;
          assert init[j - 1].firstDate <= init[i].firstDate;
        }
      }
    }
  }

  /** Sorted by `size`, every earlier group is at least as large as every later one. */
  lemma {:induction false} BySizePairwise(s: seq<Group>)
    requires NonIncreasing(BySize, s)
    ensures forall i, j :: 0 <= i < j < |s| ==> s[j].size <= s[i].size
  {
    if |s| > 1 {
      var init := s[..|s| - 1];
      assert forall i :: 0 <= i < |s| - 1 ==> init[i] == s[i];
      BySizePairwise(init);
      forall i, j | 0 <= i < j < |s| ensures s[j].size <= s[i].size {
        if j == |s| - 1 && i < j - 1 {
          assert s[j].size <= s[j - 1].size;
          assert init[j - 1].size <= init[i].size;
        }
      }
    }
  }

  /** Sorted by `hash`, no earlier hash is below a later one in string order. */
  lemma {:induction false} ByHashPairwise(s: seq<Group>)
    requires NonIncreasing(ByHash, s)
    ensures forall i, j :: 0 <= i < j < |s| ==> !StrLess(s[i].hash, s[j].hash)
  {
    if |s| > 1 {
      var init := s[..|s| - 1];
      assert forall i :: 0 <= i < |s| - 1 ==> init[i] == s[i];
      ByHashPairwise(init);
      forall i, j | 0 <= i < j < |s| ensures !StrLess(s[i].hash, s[j].hash) {
        if j == |s| - 1 && i < j - 1 {
          assert !StrLess(s[j - 1].hash, s[j].hash);
          assert !StrLess(init[i].hash, init[j - 1].hash);
          NotLessTransitive(s[i].hash, s[j - 1].hash, s[j].hash);
        }
      }
    }
  }
}

=== FILE: totalcount.dfy ===
/**
 * The text half of `parseTotalResults` (api/src/index.ts): the text of the
 * results-summary element of the upstream HTML page is searched first for
 * `<n> results shown (<total> total matches)`, where `<total>` may carry
 * thousands separators, and failing that for `<n> results`. The two regular
 * expressions are written out as matchers over digit runs; each is tried at
 * every position from the left, as a regular-expression search does.
 */
module TotalCount {
  import opened Wrappers

  predicate IsDigit(c: char)
  {
    '0' <= c <= '9'
  }

  /** A non-empty run of decimal digits (`\d+`). */
  predicate AllDigits(s: string)
  {
    |s| > 0 && forall i :: 0 <= i < |s| ==> IsDigit(s[i])
  }

  /** The length of the longest run of digits starting at `i` (greedy `\d+`; 0 when there is none). */
  function DigitRun(s: string, i: nat): (n: nat)
    requires i <= |s|
    ensures i + n <= |s|
    decreases |s| - i
  {
    if i < |s| && IsDigit(s[i]) then 1 + DigitRun(s, i + 1) else 0
  }

  /** The greedy run consists of digits and stops at a non-digit or at the end. */
  lemma {:induction false} DigitRunIsMaximal(s: string, i: nat)
    requires i <= |s|
    ensures forall j :: i <= j < i + DigitRun(s, i) ==> IsDigit(s[j])
    ensures i + DigitRun(s, i) == |s| || !IsDigit(s[i + DigitRun(s, i)])
    decreases |s| - i
  {
    if i < |s| && IsDigit(s[i]) {
      DigitRunIsMaximal(s, i + 1);
    }
  }

  /** `s` holds the literal `lit` at position `i`. */
  predicate HasAt(s: string, i: nat, lit: string)
  {
    i + |lit| <= |s| && forall t :: 0 <= t < |lit| ==> s[i + t] == lit[t]
  }

  /** The length of `(,\d+)*` matched greedily at `j`. */
  function CommaGroups(s: string, j: nat): (n: nat)
    requires j <= |s|
    ensures j + n <= |s|
    decreases |s| - j
  {
    if j < |s| && s[j] == ',' && DigitRun(s, j + 1) > 0
    then 1 + DigitRun(s, j + 1) + CommaGroups(s, j + 1 + DigitRun(s, j + 1))
    else 0
  }

  /** The length of `\d+(,\d+)*` matched greedily at `i` (0 when there is no digit at `i`). */
  function GroupedNumberRun(s: string, i: nat): (n: nat)
    requires i <= |s|
    ensures i + n <= |s|
  {
    var d := DigitRun(s, i);
    if d == 0 then 0 else d + CommaGroups(s, i + d)
  }

  const Shown: string := " results shown ("
  const TotalMatches: string := " total matches)"
  const Results: string := " results"

  /**
   * `/\d+ results shown \((\d+(,\d+)*) total matches\)/` tried at position
   * `p`: the captured total, or None. Greedy runs decide the match, since a
   * shorter run would leave a digit where a space or comma is required.
   */
  function ShownAt(s: string, p: nat): (r: Option<string>)
    ensures r.Some? ==> WellFormedTotal(r.value)
  {
    if p > |s| then None
    else
      var n := DigitRun(s, p);
      if n == 0 || !HasAt(s, p + n, Shown) then None
      else TotalAt(s, p + n + |Shown|)
  }

  /** The rest of the first pattern from position `g` on: `(\d+(,\d+)*) total matches\)`. */
  function TotalAt(s: string, g: nat): (r: Option<string>)
    ensures r.Some? ==> WellFormedTotal(r.value) && HasAt(s, g, r.value + TotalMatches)
  {
    if g > |s| then None
    else
      var m := GroupedNumberRun(s, g);
      if m > 0 && HasAt(s, g + m, TotalMatches) then
        GroupedNumberRunWellFormed(s, g);
        HasAtSlice(s, g, m);
        HasAtJoin(s, g, s[g..g + m], TotalMatches);
        Some(s[g..g + m])
      else None
  }

  /** `/(\d+) results/` tried at position `p`: the captured digits, or None. */
  function CountAt(s: string, p: nat): (r: Option<string>)
    ensures r.Some? ==> AllDigits(r.value) && HasAt(s, p, r.value + Results)
  {
    if p > |s| then None
    else
      var n := DigitRun(s, p);
      if n > 0 && HasAt(s, p + n, Results) then
        DigitRunDigits(s, p);
        HasAtSlice(s, p, n);
        HasAtJoin(s, p, s[p..p + n], Results);
        Some(s[p..p + n])
      else None
  }

  /** The two regular expressions of `parseTotalResults`. */
  datatype Pattern = ShownPattern | CountPattern

  /** Pattern `pat` tried at position `p`: its captured group, or None. */
  function MatchAt(pat: Pattern, s: string, p: nat): Option<string>
  {
    match pat
    case ShownPattern => ShownAt(s, p)
    case CountPattern => CountAt(s, p)
  }

  /** The leftmost position from `p` on where `pat` matches (`String.prototype.match` without the g flag). */
  function Leftmost(s: string, p: nat, pat: Pattern): (r: Option<nat>)
    ensures r.Some? ==> p <= r.value <= |s| && MatchAt(pat, s, r.value).Some?
    ensures r.Some? ==> forall q :: p <= q < r.value ==> MatchAt(pat, s, q).None?
    ensures r.None? ==> forall q :: p <= q <= |s| ==> MatchAt(pat, s, q).None?
    decreases |s| + 1 - p
  {
    if p > |s| then None
    else if MatchAt(pat, s, p).Some? then Some(p)
    else Leftmost(s, p + 1, pat)
  }

  /** The captured group of the leftmost match of `pat` in `s`. */
  function FirstMatch(s: string, pat: Pattern): (r: Option<string>)
    ensures r.Some? <==> exists q :: 0 <= q <= |s| && MatchAt(pat, s, q).Some?
  {
    match Leftmost(s, 0, pat)
    case None => None
    case Some(q) => MatchAt(pat, s, q)
  }

  /** `replaceAll(",", "")`. */
  function StripCommas(s: string): (r: string)
    ensures ',' !in r
    ensures forall c :: c in r <==> c in s && c != ','
  {
    if s == [] then [] else (if s[0] == ',' then [] else [s[0]]) + StripCommas(s[1..])
  }

  function DigitValue(c: char): (d: nat)
    ensures d < 10
  {
    if IsDigit(c) then c as int - '0' as int else 0
  }

  function Pow10(k: nat): nat
  {
    if k == 0 then 1 else 10 * Pow10(k - 1)
  }

  /** The decimal value of a digit string (unary `+` on it); `k` digits stay below `10^k`. */
  function Value(ds: string): (v: nat)
    ensures v < Pow10(|ds|)
  {
    if ds == [] then 0 else 10 * Value(ds[..|ds| - 1]) + DigitValue(ds[|ds| - 1])
  }

  /**
   * `parseTotalResults` once the element has been looked up: `text` is the
   * element's text content, None when the element is missing. None as the
   * result is `undefined`, the unknown total.
   */
  function ParseTotal(text: Option<string>): (r: Option<nat>)
    ensures text == None || text == Some("") ==> r == None
    ensures r.Some? <==>
              text.Some? && text.value != "" &&
              (FirstMatch(text.value, ShownPattern).Some? || FirstMatch(text.value, CountPattern).Some?)
  {
    match text
    case None => None
    case Some(t) =>
      if t == "" then None
      else
        match FirstMatch(t, ShownPattern)
        case Some(total) => Some(Value(StripCommas(total)))
        case None =>
          match FirstMatch(t, CountPattern)
          case Some(n) => Some(Value(n))
          case None => None
  }

  // ---------------------------------------------------------------------------
  // What the matchers recognise

  /** `\d+(,\d+)*` as a whole string: digits in groups separated by single commas. */
  predicate WellFormedTotal(g: string)
  {
    && |g| > 0 && IsDigit(g[0]) && IsDigit(g[|g| - 1])
    && (forall i :: 0 <= i < |g| ==> IsDigit(g[i]) || g[i] == ',')
    && (forall i :: 0 <= i < |g| - 1 ==> g[i] == ',' ==> IsDigit(g[i + 1]))
  }

  /** `(,\d+)*` as a whole string. */
  predicate WellFormedTail(w: string)
  {
    w == [] || (w[0] == ',' && WellFormedTotal(w[1..]))
  }

  /** A digit run that ends where the digits end is the greedy run. */
  lemma {:induction false} DigitRunExact(s: string, i: nat, k: nat)
    requires i + k <= |s|
    requires forall j :: i <= j < i + k ==> IsDigit(s[j])
    requires i + k == |s| || !IsDigit(s[i + k])
    ensures DigitRun(s, i) == k
    decreases k
  {
    if k > 0 {
      DigitRunExact(s, i + 1, k - 1);
    }
  }

  /** A well-formed total is its leading digits followed by a well-formed tail. */
  lemma SplitWellFormed(g: string)
    requires WellFormedTotal(g)
    ensures 1 <= DigitRun(g, 0) <= |g|
    ensures WellFormedTail(g[DigitRun(g, 0)..])
  {
    var d := DigitRun(g, 0);
    DigitRunIsMaximal(g, 0);
    var w := g[d..];
    if w != [] {
      assert g[d] == ',';
      assert d < |g| - 1;
      var v := w[1..];
      assert forall i :: 0 <= i < |v| ==> v[i] == g[d + 1 + i];
      assert IsDigit(v[0]);
    }
  }

  /** Where `v` is copied into `s` and followed by a non-digit, the greedy digit runs at their starts agree. */
  lemma RunOfCopy(s: string, i: nat, v: string)
    requires i + |v| < |s| && !IsDigit(s[i + |v|])
    requires forall t :: 0 <= t < |v| ==> s[i + t] == v[t]
    ensures DigitRun(s, i) == DigitRun(v, 0)
  {
    var d := DigitRun(v, 0);
    DigitRunIsMaximal(v, 0);
    forall k | i <= k < i + d ensures IsDigit(s[k]) {
      assert s[i + (k - i)] == v[k - i];
    }
    if d < |v| {
      assert s[i + d] == v[d];
    }
    DigitRunExact(s, i, d);
  }

  /** `(,\d+)*` run greedily over a well-formed tail followed by a space consumes exactly that tail. */
  lemma {:induction false} CommaGroupsExact(s: string, j: nat, w: string)
    requires j + |w| < |s| && s[j + |w|] == ' '
    requires forall t :: 0 <= t < |w| ==> s[j + t] == w[t]
    requires WellFormedTail(w)
    ensures CommaGroups(s, j) == |w|
    decreases |w|
  {
    if w != [] {
      assert s[j] == ',' by {
        assert s[j + 0] == w[0];
      }
      var v := w[1..];
      SplitWellFormed(v);
      var d := DigitRun(v, 0);
      forall t | 0 <= t < |v| ensures s[j + 1 + t] == v[t] {
        assert s[j + (1 + t)] == w[1 + t];
      }
      RunOfCopy(s, j + 1, v);
      var w' := v[d..];
      forall t | 0 <= t < |w'| ensures s[j + 1 + d + t] == w'[t] {
        assert s[j + 1 + (d + t)] == v[d + t];
      }
      CommaGroupsExact(s, j + 1 + d, w');
      assert CommaGroups(s, j) == 1 + DigitRun(s, j + 1) + CommaGroups(s, j + 1 + DigitRun(s, j + 1));
    }
  }

  /** `\d+(,\d+)*` run greedily over a well-formed total followed by a space consumes exactly that total. */
  lemma GroupedNumberRunExact(s: string, i: nat, g: string)
    requires i + |g| < |s| && s[i + |g|] == ' '
    requires forall t :: 0 <= t < |g| ==> s[i + t] == g[t]
    requires WellFormedTotal(g)
    ensures GroupedNumberRun(s, i) == |g|
  {
    SplitWellFormed(g);
    var d := DigitRun(g, 0);
    RunOfCopy(s, i, g);
    var w := g[d..];
    forall t | 0 <= t < |w| ensures s[i + d + t] == w[t] {
      assert s[i + (d + t)] == g[d + t];
    }
    CommaGroupsExact(s, i + d, w);
  }

  /** A literal made of two parts is held at `i` exactly when its parts are held one after the other. */
  lemma HasAtSplit(s: string, i: nat, a: string, b: string)
    requires HasAt(s, i, a + b)
    ensures HasAt(s, i, a) && HasAt(s, i + |a|, b)
  {
    forall t | 0 <= t < |a| ensures s[i + t] == a[t] {
      assert (a + b)[t] == a[t];
    }
    forall t | 0 <= t < |b| ensures s[i + |a| + t] == b[t] {
      assert s[i + (|a| + t)] == (a + b)[|a| + t];
    }
  }

  /** `<n> results shown (<total> total matches)`, piece by piece, at `p` matches there, capturing `<total>`. */
  lemma ShownAtPieces(s: string, p: nat, n: string, g: string)
    requires AllDigits(n) && WellFormedTotal(g)
    requires HasAt(s, p, n) && HasAt(s, p + |n|, Shown)
    requires HasAt(s, p + |n| + |Shown|, g) && HasAt(s, p + |n| + |Shown| + |g|, TotalMatches)
    ensures ShownAt(s, p) == Some(g)
  {
    DigitsThenSpace(s, p, n, Shown);
    TotalAtPieces(s, p + |n| + |Shown|, g);
    ShownAtFrom(s, p, |n|, g);
  }

  /** The first pattern matches at `p` once its digits, its literal and the rest of it are in place. */
  lemma ShownAtFrom(s: string, p: nat, k: nat, g: string)
    requires p <= |s| && DigitRun(s, p) == k > 0 && HasAt(s, p + k, Shown)
    requires TotalAt(s, p + k + |Shown|) == Some(g)
    ensures ShownAt(s, p) == Some(g)
  {
  }

  /** `<total> total matches)` at `q` matches the rest of the first pattern, capturing `<total>`. */
  lemma TotalAtPieces(s: string, q: nat, g: string)
    requires WellFormedTotal(g)
    requires HasAt(s, q, g) && HasAt(s, q + |g|, TotalMatches)
    ensures TotalAt(s, q) == Some(g)
  {
    assert s[q + |g|] == ' ' by {
      assert s[q + |g| + 0] == TotalMatches[0];
    }
    GroupedNumberRunExact(s, q, g);
    assert s[q..q + |g|] == g;
  }

  /** Digits `n` at `p` followed by a literal that starts with a space form the whole greedy digit run. */
  lemma DigitsThenSpace(s: string, p: nat, n: string, lit: string)
    requires AllDigits(n) && |lit| > 0 && lit[0] == ' '
    requires HasAt(s, p, n) && HasAt(s, p + |n|, lit)
    ensures DigitRun(s, p) == |n|
  {
    assert s[p + |n|] == ' ' by {
      assert s[p + |n| + 0] == lit[0];
    }
    RunOfCopy(s, p, n);
    DigitRunExact(n, 0, |n|);
  }

  /** Text holding `<n> results shown (<total> total matches)` at `p` matches there, capturing `<total>`. */
  lemma ShownAtRecognises(s: string, p: nat, n: string, g: string)
    requires AllDigits(n) && WellFormedTotal(g)
    requires HasAt(s, p, n + Shown + g + TotalMatches)
    ensures ShownAt(s, p) == Some(g)
  {
    HasAtSplit(s, p, n + Shown + g, TotalMatches);
    HasAtSplit(s, p, n + Shown, g);
    HasAtSplit(s, p, n, Shown);
    ShownAtPieces(s, p, n, g);
  }

  /** Text holding `<n> results` at `p` matches the fallback there, capturing `<n>`. */
  lemma CountAtRecognises(s: string, p: nat, n: string)
    requires AllDigits(n)
    requires HasAt(s, p, n + Results)
    ensures CountAt(s, p) == Some(n)
  {
    HasAtSplit(s, p, n, Results);
    DigitsThenSpace(s, p, n, Results);
    assert s[p..p + |n|] == n;
  }

  /** Two literals held one after the other form their concatenation. */
  lemma HasAtJoin(s: string, i: nat, a: string, b: string)
    requires HasAt(s, i, a) && HasAt(s, i + |a|, b)
    ensures HasAt(s, i, a + b)
  {
    forall t | 0 <= t < |a + b| ensures s[i + t] == (a + b)[t] {
      if t >= |a| {
        assert s[i + |a| + (t - |a|)] == b[t - |a|];
      }
    }
  }

  /** A text holds each of its own slices. */
  lemma HasAtSlice(s: string, i: nat, k: nat)
    requires i + k <= |s|
    ensures HasAt(s, i, s[i..i + k])
  {
    var w := s[i..i + k];
    forall t | 0 <= t < k ensures s[i + t] == w[t] {
    }
  }

  /** The greedy digit run, when there is one, is a `\d+` string. */
  lemma DigitRunDigits(s: string, i: nat)
    requires i <= |s| && DigitRun(s, i) > 0
    ensures AllDigits(s[i..i + DigitRun(s, i)])
  {
    DigitRunIsMaximal(s, i);
    var d := DigitRun(s, i);
    var w := s[i..i + d];
    forall t | 0 <= t < d ensures IsDigit(w[t]) {
      assert w[t] == s[i + t];
    }
  }

  /** Digits followed by a `(,\d+)*` tail form a `\d+(,\d+)*` string. */
  lemma DigitsThenTail(a: string, w: string)
    requires AllDigits(a) && WellFormedTail(w)
    ensures WellFormedTotal(a + w)
  {
    var g := a + w;
    if w != [] {
      var v := w[1..];
      assert g[|g| - 1] == v[|v| - 1];
      forall i | 0 <= i < |g| ensures IsDigit(g[i]) || g[i] == ',' {
        if i > |a| {
          assert g[i] == v[i - |a| - 1];
        }
      }
      forall i | 0 <= i < |g| - 1 && g[i] == ',' ensures IsDigit(g[i + 1]) {
        if i == |a| {
          assert g[i + 1] == v[0];
        } else {
          assert g[i] == v[i - |a| - 1] && g[i + 1] == v[i - |a|];
        }
      }
    }
  }

  /** The greedy `(,\d+)*` run is a well-formed tail. */
  lemma {:induction false} CommaGroupsWellFormed(s: string, j: nat)
    requires j <= |s|
    ensures WellFormedTail(s[j..j + CommaGroups(s, j)])
    decreases |s| - j
  {
    if CommaGroups(s, j) > 0 {
      var k := j + 1 + DigitRun(s, j + 1);
      CommaGroupsWellFormed(s, k);
      CommaGroupsStep(s, j, k);
    } else {
      assert s[j..j] == [];
    }
  }

  /** One more `,\d+` group in front of a well-formed tail is a well-formed tail. */
  lemma CommaGroupsStep(s: string, j: nat, k: nat)
    requires j <= |s| && CommaGroups(s, j) > 0 && k == j + 1 + DigitRun(s, j + 1)
    requires WellFormedTail(s[k..k + CommaGroups(s, k)])
    ensures WellFormedTail(s[j..j + CommaGroups(s, j)])
  {
    CommaGroupsUnfold(s, j);
    DigitRunDigits(s, j + 1);
    DigitsThenTail(s[j + 1..k], s[k..k + CommaGroups(s, k)]);
    CommaThenTotal(s, j, k, k + CommaGroups(s, k));
  }

  /** A non-empty `(,\d+)*` run is a comma, a digit run and the rest of the run. */
  lemma CommaGroupsUnfold(s: string, j: nat)
    requires j <= |s| && CommaGroups(s, j) > 0
    ensures s[j] == ','
    ensures CommaGroups(s, j) == 1 + DigitRun(s, j + 1) + CommaGroups(s, j + 1 + DigitRun(s, j + 1))
  {
  }

  /** A comma followed by a well-formed total, read off the text: a well-formed tail. */
  lemma CommaThenTotal(s: string, j: nat, k: nat, e: nat)
    requires j < k <= e <= |s| && s[j] == ','
    requires WellFormedTotal(s[j + 1..k] + s[k..e])
    ensures WellFormedTail(s[j..e])
  {
    assert s[j + 1..k] + s[k..e] == s[j + 1..e] == s[j..e][1..];
  }

  /** The greedy `\d+(,\d+)*` run, when there is one, is a well-formed total. */
  lemma GroupedNumberRunWellFormed(s: string, i: nat)
    requires i <= |s| && GroupedNumberRun(s, i) > 0
    ensures WellFormedTotal(s[i..i + GroupedNumberRun(s, i)])
  {
    var d := DigitRun(s, i);
    var m := GroupedNumberRun(s, i);
    DigitRunDigits(s, i);
    CommaGroupsWellFormed(s, i + d);
    DigitsThenTail(s[i..i + d], s[i + d..i + m]);
    assert s[i..i + m] == s[i..i + d] + s[i + d..i + m];
  }

  /**
   * The converse of `ShownAtRecognises`: where the first pattern matches, the
   * text holds `<n> results shown (<total> total matches)` with `<n>` the
   * digits there and `<total>` the capture.
   */
  lemma ShownAtLayout(s: string, p: nat)
    ensures ShownAt(s, p).Some? ==>
              && p <= |s|
              && AllDigits(s[p..p + DigitRun(s, p)])
              && WellFormedTotal(ShownAt(s, p).value)
              && HasAt(s, p, s[p..p + DigitRun(s, p)] + Shown + ShownAt(s, p).value + TotalMatches)
  {
    if ShownAt(s, p).Some? {
      var k := DigitRun(s, p);
      var n := s[p..p + k];
      var g := ShownAt(s, p).value;
      DigitRunDigits(s, p);
      HasAtSlice(s, p, k);
      HasAtJoin(s, p, n, Shown);
      HasAtJoin(s, p, n + Shown, g + TotalMatches);
      assert n + Shown + (g + TotalMatches) == n + Shown + g + TotalMatches;
    }
  }

  /** The literal ` results shown (` ends in a '('. */
  lemma NoParenNotShownAt(s: string, i: nat)
    requires '(' !in s
    ensures !HasAt(s, i, Shown)
  {
    if i + |Shown| <= |s| {
      assert s[i + (|Shown| - 1)] in s;
      assert Shown[|Shown| - 1] == '(';
    }
  }

  /** The first pattern needs a '(' in the text. */
  lemma NoParenNoShown(s: string)
    requires '(' !in s
    ensures forall q :: ShownAt(s, q).None?
  {
    forall q: nat | q <= |s| && DigitRun(s, q) > 0 ensures !HasAt(s, q + DigitRun(s, q), Shown) {
      NoParenNotShownAt(s, q + DigitRun(s, q));
    }
  }

  /** Neither pattern can match a text without digits. */
  lemma NoDigitNoMatch(s: string)
    requires forall i :: 0 <= i < |s| ==> !IsDigit(s[i])
    ensures forall q :: ShownAt(s, q).None? && CountAt(s, q).None?
  {
  }

  /** Removing commas from a comma-free string changes nothing. */
  lemma {:induction false} StripNoComma(s: string)
    requires ',' !in s
    ensures StripCommas(s) == s
  {
    if s != [] {
      assert ',' !in s[1..] by {
        forall i | 0 <= i < |s[1..]| ensures s[1..][i] != ',' {
          assert s[1..][i] == s[i + 1];
        }
      }
      StripNoComma(s[1..]);
      assert s == [s[0]] + s[1..];
    }
  }

  /** Removing commas works piece by piece, so the kept characters stay in order. */
  lemma {:induction false} StripAppend(a: string, b: string)
    ensures StripCommas(a + b) == StripCommas(a) + StripCommas(b)
    decreases |a|
  {
    if a == [] {
      assert a + b == b;
    } else {
      assert (a + b)[0] == a[0];
      assert (a + b)[1..] == a[1..] + b;
      StripAppend(a[1..], b);
    }
  }

  /**
   * Decimal place value: the digits `a` followed by the digits `b` are worth
   * `a` shifted left by `|b|` places plus `b`.
   */
  lemma {:induction false} ValueAppend(a: string, b: string)
    ensures Value(a + b) == Value(a) * Pow10(|b|) + Value(b)
    decreases |b|
  {
    if b == [] {
      assert a + b == a;
    } else {
      var init := b[..|b| - 1];
      assert (a + b)[..|a + b| - 1] == a + init;
      assert (a + b)[|a + b| - 1] == b[|b| - 1];
      ValueAppend(a, init);
      PlaceStep(Value(a), Pow10(|init|), Value(init), DigitValue(b[|b| - 1]));
    }
  }

  /** One decimal place of `ValueAppend`, kept apart so that the solver sees no function definitions. */
  lemma PlaceStep(x: int, y: int, z: int, d: int)
    ensures 10 * (x * y + z) + d == x * (10 * y) + (10 * z + d)
  {
  }

  /** A single digit is worth its distance from `'0'`: the base case of the decimal reading. */
  lemma ValueDigit(c: char)
    requires IsDigit(c)
    ensures Value([c]) == c as int - '0' as int
  {
    assert [c][..0] == [];
  }

  /** A leading zero does not change the value (`+"007"` is 7). */
  lemma {:induction false} ValueLeadingZero(ds: string)
    ensures Value(['0'] + ds) == Value(ds)
    decreases |ds|
  {
    if ds != [] {
      var init := ds[..|ds| - 1];
      assert (['0'] + ds)[..|ds|] == ['0'] + init;
      assert (['0'] + ds)[|ds|] == ds[|ds| - 1];
      ValueLeadingZero(init);
    }
  }

  // ---------------------------------------------------------------------------
  // What the count extraction promises

  /** The leftmost match is the first position where the pattern matches. */
  lemma LeftmostAt(s: string, pat: Pattern, p: nat)
    requires p <= |s| && MatchAt(pat, s, p).Some?
    requires forall q: nat :: q < p ==> MatchAt(pat, s, q).None?
    ensures Leftmost(s, 0, pat) == Some(p)
  {
  }

  /**
   * `<n> results shown (<total> total matches)` at `p`, with no match of the
   * first pattern further left: the total, commas stripped.
   */
  lemma TotalFromShown(text: string, p: nat, n: string, g: string)
    requires AllDigits(n) && WellFormedTotal(g)
    requires HasAt(text, p, n + Shown + g + TotalMatches)
    requires forall q: nat :: q < p ==> ShownAt(text, q).None?
    ensures ParseTotal(Some(text)) == Some(Value(StripCommas(g)))
  {
    ShownAtRecognises(text, p, n, g);
    LeftmostAt(text, ShownPattern, p);
  }

  /**
   * `<n> results` at `p`, where the first pattern matches nowhere and the
   * fallback nowhere further left: the count `<n>`.
   */
  lemma TotalFromCount(text: string, p: nat, n: string)
    requires AllDigits(n) && HasAt(text, p, n + Results)
    requires forall q: nat :: ShownAt(text, q).None?
    requires forall q: nat :: q < p ==> CountAt(text, q).None?
    ensures ParseTotal(Some(text)) == Some(Value(n))
  {
    CountAtRecognises(text, p, n);
    LeftmostAt(text, CountPattern, p);
    assert FirstMatch(text, ShownPattern).None?;
  }

  /**
   * The converse: a total comes from the leftmost match of the first pattern,
   * or, when that pattern matches nowhere, from the leftmost match of the
   * fallback.
   */
  lemma TotalFound(t: string)
    requires ParseTotal(Some(t)).Some?
    ensures var v := ParseTotal(Some(t)).value;
            || (exists p: nat :: p <= |t| && ShownAt(t, p).Some? && v == Value(StripCommas(ShownAt(t, p).value))
                                && forall q: nat :: q < p ==> ShownAt(t, q).None?)
            || ((forall q: nat :: ShownAt(t, q).None?) &&
                exists p: nat :: p <= |t| && CountAt(t, p).Some? && v == Value(CountAt(t, p).value)
                                && forall q: nat :: q < p ==> CountAt(t, q).None?)
  {
    var v := ParseTotal(Some(t)).value;
    match Leftmost(t, 0, ShownPattern)
    case Some(p) =>
      assert MatchAt(ShownPattern, t, p) == ShownAt(t, p);
      assert forall q: nat :: q < p ==> MatchAt(ShownPattern, t, q) == ShownAt(t, q);
      assert v == Value(StripCommas(ShownAt(t, p).value));
      assert p <= |t| && ShownAt(t, p).Some? && v == Value(StripCommas(ShownAt(t, p).value))
             && forall q: nat :: q < p ==> ShownAt(t, q).None?;
    case None =>
      assert forall q: nat :: MatchAt(ShownPattern, t, q) == ShownAt(t, q);
      var p := Leftmost(t, 0, CountPattern).value;
      assert MatchAt(CountPattern, t, p) == CountAt(t, p);
      assert forall q: nat :: q < p ==> MatchAt(CountPattern, t, q) == CountAt(t, q);
      assert v == Value(CountAt(t, p).value);
      assert p <= |t| && CountAt(t, p).Some? && v == Value(CountAt(t, p).value)
             && forall q: nat :: q < p ==> CountAt(t, q).None?;
  }

  /** A text laid out as neither pattern anywhere has no total. */
  lemma NoLayoutNoTotal(t: string)
    requires forall p: nat, n, g :: AllDigits(n) && WellFormedTotal(g) ==> !HasAt(t, p, n + Shown + g + TotalMatches)
    requires forall p: nat, n :: AllDigits(n) ==> !HasAt(t, p, n + Results)
    ensures ParseTotal(Some(t)) == None
  {
    forall q: nat ensures ShownAt(t, q).None? {
      ShownAtLayout(t, q);
    }
    assert forall q: nat :: MatchAt(ShownPattern, t, q) == ShownAt(t, q);
    assert forall q: nat :: MatchAt(CountPattern, t, q) == CountAt(t, q);
  }

  /** `<n> results shown (<total> total matches)` at the start of the text: the total, commas stripped. */
  lemma LeadingShown(text: string, n: string, g: string, rest: string)
    requires AllDigits(n) && WellFormedTotal(g)
    requires text == n + Shown + g + TotalMatches + rest
    ensures ParseTotal(Some(text)) == Some(Value(StripCommas(g)))
  {
    var lit := n + Shown + g + TotalMatches;
    assert HasAt(text, 0, lit) by {
      forall t | 0 <= t < |lit| ensures text[0 + t] == lit[t] {
        assert text[t] == (lit + rest)[t];
      }
    }
    TotalFromShown(text, 0, n, g);
  }

  /** `<n> results` at the start of a text with no '(' after it: the count `<n>`. */
  lemma LeadingCount(text: string, n: string, rest: string)
    requires AllDigits(n)
    requires text == n + Results + rest
    requires '(' !in rest
    ensures ParseTotal(Some(text)) == Some(Value(n))
  {
    var lit := n + Results;
    assert '(' !in text by {
      forall t | 0 <= t < |text| ensures text[t] != '(' {
        if t < |n| {
          assert text[t] == n[t] && IsDigit(n[t]);
        } else if t < |lit| {
          assert text[t] == Results[t - |n|];
        } else {
          assert text[t] == rest[t - |lit|];
        }
      }
    }
    assert HasAt(text, 0, lit) by {
      forall t | 0 <= t < |lit| ensures text[0 + t] == lit[t] {
        assert text[t] == (lit + rest)[t];
      }
    }
    NoParenNoShown(text);
    TotalFromCount(text, 0, n);
  }

  /** A missing element, an empty text or a text with no number: the total is unknown. */
  lemma TotalUnknown(text: Option<string>)
    requires text.Some? ==> forall i :: 0 <= i < |text.value| ==> !IsDigit(text.value[i])
    ensures ParseTotal(text) == None
  {
    if text.Some? {
      NoDigitNoMatch(text.value);
    }
  }

  /** `50 results shown (1,234 total matches)` gives 1234. */
  lemma ShownExample(text: string)
    requires text == "50" + Shown + "1,234" + TotalMatches
    ensures ParseTotal(Some(text)) == Some(1234)
  {
    assert WellFormedTotal("1,234");
    assert text == "50" + Shown + "1,234" + TotalMatches + "";
    LeadingShown(text, "50", "1,234", "");
    StripExample();
  }

  /** `1,234` without its commas has the value 1234. */
  lemma StripExample()
    ensures Value(StripCommas("1,234")) == 1234
  {
    assert StripCommas("1,234") == "1234";
    assert Value("1") == 1;
    assert "12"[..1] == "1";
    assert "123"[..2] == "12";
    assert "1234"[..3] == "123";
  }

  /** `7 results` gives 7. */
  lemma CountExample(text: string)
    requires text == "7" + Results
    ensures ParseTotal(Some(text)) == Some(7)
  {
    assert text == "7" + Results + "";
    LeadingCount(text, "7", "");
  }

  /** `0 results` gives 0, a known total distinct from the unknown one. */
  lemma ZeroExample(text: string)
    requires text == "0" + Results
    ensures ParseTotal(Some(text)) == Some(0) != ParseTotal(None)
  {
    assert text == "0" + Results + "";
    LeadingCount(text, "0", "");
  }
}

=== FILE: wrappers.dfy ===
/** The optional value JavaScript writes as `T | undefined`. */
module Wrappers {
  datatype Option<+T> = None | Some(value: T)

  /** A key lookup that answers `undefined` for a missing key, as an object index does. */
  function Lookup<K, V>(m: map<K, V>, k: K): (r: Option<V>)
    ensures r.Some? <==> k in m
    ensures r.Some? ==> r.value == m[k]
  {
    if k in m then Some(m[k]) else None
  }
}
